=== FILE: README.md ===
# snakstore core in Dafny

snakstore is a command-line key store. Secrets live in one JSON document
under `passwords`. Each secret is a tree of objects addressed by slash paths
such as `email/work`, and its `password` field holds an AES ciphertext in
the form `ivHex:cipherHex`.

This project models the pure core of that program and proves properties of
the model:

- **Key paths** (`KeyPath`, `Text`): `Store.getKeyPath` turns a slash path
  into tree keys. Every key but the last gets the directory suffix `/`.
- **The secret tree** (`SecretTree`, `Store`):
  - `Store.walkPath` and `Store#passwordExists`;
  - the insertion loop of `Store#save`;
  - what `Store#get` and `Store#list` show for a path;
  - the reserved name `password` checked by `Store#getArgs`;
  - the prompt loop of `Store.getAdditionalFields`;
  - the encryption-key check of `getArgs`.
- **Passwords** (`Requirements`, `Fixers`, `Generator`):
  - the requirement checkers, `Password.missingRequirements` and
    `Password.isMeetsRequirements`;
  - the fixers and loop of `Password.forceMeetRequirements`;
  - `Password.generateRandom`.
- **The ciphertext envelope** (`Envelope`): `encrypt`/`decrypt` of
  `password.mjs`, with AES-256-CBC and SHA-256 as function parameters.
- **The argument parser** (`Argv`): `CMD.parse` with its `createBiMap`,
  `ArgMap#getx`, and the option table of `index.js`.

How JavaScript behaviour is modelled:

- **Randomness.** `Math.random` becomes an explicit stream of natural
  numbers. `rand(max)` is the draw modulo `max`, and 0 when `max` is 0. The
  fixers and `getChar` retry by calling themselves, and JavaScript has no
  tail calls, so retries that do not end throw a `RangeError` once the stack
  overflows. A stream that runs out (`OutOfDraws`, or `None` for `getChar`)
  stands for that failure.
- **Thrown TypeErrors.** Every thrown `TypeError` is a `Failure(TypeError)`.
  It arises from the `in` operator applied to a string or to `undefined`, or
  from a method called on `""[0]`.
- **Prompt answers.** What the prompts of `getAdditionalFields` would read is
  given as a list of answers.

## Behaviour worth noting

- **No path-conflict error.** Saving below a path that holds a string does
  not report a conflict. `passwordExists` meets `p in "text"` with keys left
  and throws a `TypeError` before the insertion loop runs
  (`SecretTree.PasswordExists`, `Store.Save`). A non-empty string target is
  truthy, so the save stops as "already exists". Only an empty-string target
  reaches `Object.assign`, which works on a String wrapper: the save is
  silently lost, unless an extra field is named `length`, whose read-only
  wrapper property makes it throw (`Store.LengthFieldOnEmptyString`).
- **A field named `__proto__` is not stored.** `fields[name] = …` with that
  name runs the inherited setter, which ignores a string
  (`Store.ProtoFieldDropped`).
- **Wrong keys are never rejected.** `checkEncryptionKey` is `async`, and its
  Promise is always truthy (see Findings).
- **Repair has no countdown.** A fixer redraws until it finds an eligible
  position, with no bound. A fixer with no eligible position retries until
  the stack overflows and throws a `RangeError`: the uppercase fixer on a
  password without small letters, for example (`Fixers.StuckRunsOut`,
  `Fixers.UppercaseStuckIff`).
- **The length fixer appends nothing.** It reads `Password.minLen`, which
  only `Password.configure` sets, and nothing calls `configure`. The count is
  `NaN`, and the password comes back unchanged (`Fixers.LengthFixerKeepsShort`).
- **Fixers on an empty string.** The uppercase and lowercase fixers throw on
  `""`. The special and number fixers write one character.
- **The special fixer's alphabet differs from the checker's.**
  - The fixer tests and writes `CHARS.special`, minus its last character `;`,
    which `rand(length - 1)` never picks.
  - The checker accepts only `!@#$%^&*(){}[]?,.:`.
  - So a "fixed" password can still fail the special check
    (`Fixers.SpecialFixMayNotSatisfy`).
- **The result is not checked again.** `forceMeetRequirements` returns
  without a second check. A later fixer can overwrite an earlier fix
  (`Fixers.LaterFixUndoesEarlier`).
- **Digits come only from repair.** Generated characters never include
  digits (`Generator.GeneratedHasNoDigit`).

## Model

| member | source | states |
|---|---|---|
| `Text.SplitJoin` | src/store.mjs:402 | splitting the joined pieces on the separator gives back the pieces, when none contains the separator |
| `KeyPath.GetKeyPath` | src/store.mjs:400-410 | the empty path is the root; the result has one key per non-empty token; every key but the last is a directory key (ends with `/`), and each key names its token |
| `KeyPath.TrailingSlashIgnored` | src/store.mjs:400-410 | `a/b/` resolves like `a/b`: the last segment never becomes a directory key |
| `KeyPath.LeadingSlashIgnored` | src/store.mjs:400-410 | a leading `/` does not change the key path |
| `KeyPath.RepeatedSlashIgnored` | src/store.mjs:400-410 | `a//b` resolves like `a/b`, because empty tokens are dropped |
| `KeyPath.KeyPathRoundTrip` | src/store.mjs:400-410 | spelling a well-formed key path as a string and resolving it gives the key path back |
| `KeyPath.KeyPathIdempotent` | src/store.mjs:400-410 | resolution is a normalisation: resolving the spelling of a resolved path changes nothing |
| `SecretTree.WalkPath` | src/store.mjs:411-419 | agrees with exact lookup wherever exact lookup succeeds; `undefined` only where exact lookup fails; the empty path returns the tree |
| `SecretTree.WalkPathAppend` | src/store.mjs:411-419 | walking `a + b` is walking `b` from what walking `a` found |
| `SecretTree.WalkPathFallback` | src/store.mjs:414-415 | below an object, a name that is not a key but whose directory key `name/` is walks into that directory |
| `SecretTree.WalkPathMissing` | src/store.mjs:414-416 | below an object, a name that is neither a key nor a directory key gives `undefined` |
| `SecretTree.WalkPathThrownIff` | src/store.mjs:411-419 | the walk throws exactly when some proper prefix of the keys walks to a string (`in` applied to a string with keys left) |
| `SecretTree.WalkPathFollowsRoute` | src/store.mjs:411-419 | whatever the walk finds is found by exact lookup along a route taking each key as it is or as its directory key |
| `SecretTree.PasswordExists` | src/store.mjs:383-394 | throws exactly when following the keys meets a string with keys left; otherwise true exactly when the keys reach a truthy value |
| `SecretTree.Insert` | src/store.mjs:137-150 | succeeds exactly when the walk never meets a string with keys left and the target is not a string whose wrapper makes a new field read-only (`length`, a character index); a string target is otherwise left unchanged; every failure is a `TypeError` |
| `SecretTree.InsertNewDirectory` | src/store.mjs:137-150 | two keys below an object lacking the first create that key, an object holding the second, and the source below it |
| `SecretTree.InsertNewFound` | src/store.mjs:137-150 | inserting at a path that did not exist creates the source object there, and lookup, `walkPath` and `passwordExists` all find it |
| `SecretTree.InsertFrame` | src/store.mjs:137-150 | every path that is neither a prefix of the inserted path nor goes through a new field looks up what it did before |
| `SecretTree.InsertWellShaped` | src/store.mjs:137-150 | insertion keeps every directory key holding an object |
| `SecretTree.Listing` | src/store.mjs:214-230 | the names `printPasswordNames` visits; no contract of its own, characterised by `SecretTree.ListingExact` |
| `SecretTree.ListingExact` | src/store.mjs:214-230 | in a well-shaped tree, the names listed are exactly the existing paths whose every step but the last is a directory key |
| `Store.ReservedPathIsLastToken` | src/store.mjs:305-320 | a path is refused exactly when its last non-empty token is `password` |
| `Store.SetField` | src/store.mjs:431 | assigning a field stores its value under its name and keeps every other field, except that `__proto__` is never stored |
| `Store.AdditionalFields` | src/store.mjs:420-435 | the collected fields never include `password` or `__proto__`; every name and value is one of the answers given |
| `Store.FieldRounds` | src/store.mjs:424-433 | the rounds never add `password` or `__proto__`; every collected pair is an earlier field or comes from the answers; round by round it is characterised by `Store.FieldRoundCollects`, `Store.ProtoFieldDropped` and `Store.PasswordFieldRefused` |
| `Store.FirstQuestion` | src/store.mjs:422-424 | `n` to the first question collects nothing; `N` there starts the rounds |
| `Store.FieldRoundCollects` | src/store.mjs:424-432 | a round with a name other than `password` and `__proto__` adds that name with its value; `n` or `N` to the next question stops, any other answer goes on |
| `Store.ProtoFieldDropped` | src/store.mjs:424-432 | a round named `__proto__` stores nothing, and the next question is asked as usual |
| `Store.PasswordFieldRefused` | src/store.mjs:427-430 | a round named `password` adds nothing and the next round starts without the question |
| `Store.SessionCollects` | src/store.mjs:420-434 | saying `y`, then entering name/value pairs with `y` between them and `n` at the end, collects exactly those pairs, the last value of a name winning, except any named `__proto__` |
| `Store.SecretEntries` | src/store.mjs:147-150 | the stored secret has exactly the extra fields plus `password`; the extra fields are kept, and `password` holds the ciphertext unless an extra field overrides it |
| `Store.AssignToEmptyThrows` | src/store.mjs:147-150 | `Object.assign` of a new secret onto `""` throws exactly when an extra field is named `length` |
| `Store.Save` | src/store.mjs:124-157 | a reserved path is refused; otherwise the save fails as already existing exactly when the path holds a truthy value, and with a `TypeError` exactly when the exact walk meets a string with keys left or the target is `""` and an extra field is named `length`; it succeeds exactly when none of these holds; an empty-string target stays as it was |
| `Store.LengthFieldOnEmptyString` | src/store.mjs:147-150 | saving onto a path holding `""` with an extra field named `length` fails with a `TypeError` |
| `Store.SaveStores` | src/store.mjs:124-157 | after a successful save the path holds the new secret, found by lookup, `walkPath` and `passwordExists` |
| `Store.SaveTwiceFails` | src/store.mjs:129-131 | saving twice onto the same path fails the second time |
| `Store.SaveFrame` | src/store.mjs:137-150 | a save changes no path off the saved one |
| `Store.SaveKeepsShape` | src/store.mjs:137-150 | a save keeps directories as objects when no field name ends with `/` |
| `Store.GetView` | src/store.mjs:233-272 | a reserved path is refused; of the value `walkPath` finds (directory fallback included), an object with a `password` field shows as that secret's fields, any other object as its listing, and a string throws; a path the walk does not find throws a `TypeError` (`'password' in undefined`) |
| `Store.Reveal` | src/store.mjs:239-244 | one decrypted value for every field of the secret |
| `Store.SaveThenGet` | src/store.mjs:124-157 | getting a just-saved path shows the secret, and its `password` field decrypts to the original plaintext |
| `Store.List` | src/store.mjs:199-231 | a truthy value `walkPath` finds (directory fallback included) shows its listing; a falsy one, or `undefined`, is reported as missing; a walk that throws gives a `TypeError` |
| `Store.TwoLevelKeyPath` | src/store.mjs:400-410 | `dir/name` resolves to the keys `dir/` and `name`, and `dir` alone to the key `dir` |
| `Store.SaveIntoNewDirectory` | src/store.mjs:124-157 | saving `dir/name` where `dir/` is absent succeeds and adds `dir/` holding `name`, which holds the secret |
| `Store.SaveThenGetDirectory` | src/store.mjs:124-157 | saving `dir/name` into a new directory succeeds, and the bare name `dir` then walks into `dir/`; `list` and `get` of `dir` show its listing, which holds `name` |
| `Store.SaveThenList` | src/store.mjs:199-231 | after a save, listing the root shows the new secret under its full key path |
| `Store.KeyNeverRejected` | src/store.mjs:290-303 | as written, no encryption key is ever rejected, whatever its hash |
| `Store.CheckEncryptionKey` | src/store.mjs:115-118 | a Promise of the hash comparison; no contract of its own, characterised by `Store.WrongKeyAccepted`, `Store.KeyNeverRejected` and `Store.AwaitedKeyRejected` |
| `Store.WrongKeyAccepted` | src/store.mjs:115-118 | a key whose hash differs from the stored hash passes the check |
| `Store.AwaitedKeyRejected` | src/store.mjs:115-118 | with the Promise awaited, a key is rejected exactly when its hash differs from the stored hash |
| `Envelope.HexRoundTrip` | src/password.mjs:68-70 | `Buffer.from(hex)` inverts `toString('hex')` |
| `Envelope.DeriveKey` | src/password.mjs:53 | the key is the first 32 characters of the digest, or the whole digest when it is shorter |
| `Envelope.ParseFormat` | src/password.mjs:58 | splitting `iv:ciphertext` at the first `:` gives both parts back, whatever the ciphertext part holds |
| `Envelope.FormatParse` | src/password.mjs:67-70 | rejoining the two parts of any text with a `:` gives the text back |
| `Envelope.Encrypt` | src/password.mjs:275-288 | an envelope is produced exactly when the cipher succeeds; it is the hex IV, a `:`, and the hex ciphertext |
| `Envelope.Decrypt` | src/password.mjs:289-304 | no contract of its own; `Envelope.EncryptDecrypt` states that it inverts `Envelope.Encrypt` |
| `Envelope.EncryptDecrypt` | src/password.mjs:289-304 | decrypting with the passphrase that sealed an envelope gives back the plaintext, for any cipher whose decryption undoes its encryption |
| `Envelope.DistinctIvsDistinctEnvelopes` | src/password.mjs:275-288 | envelopes sealed with different IVs differ, whatever the plaintexts and passphrases |
| `Requirements.UppercaseIffCapital` | src/password.mjs:25 | the uppercase check holds exactly when there is a letter A–Z |
| `Requirements.LowercaseIffSmall` | src/password.mjs:26 | the lowercase check holds exactly when there is a letter a–z |
| `Requirements.NumberIffDigit` | src/password.mjs:34-40 | the number check holds exactly when there is a digit |
| `Requirements.SpecialIffChecked` | src/password.mjs:27-33 | the special check holds exactly when some character is one of `!@#$%^&*(){}[]?,.:` |
| `Requirements.MissingRequirements` | src/password.mjs:157-164 | a requirement is reported missing exactly when it is asked for and its check fails |
| `Requirements.MissingAppend` | src/password.mjs:157-164 | the order of the requirements given is kept |
| `Requirements.AllMissing` | src/password.mjs:157-164 | when every check fails, every requirement is reported, in order |
| `Requirements.IsMeetsRequirements` | src/password.mjs:165-171 | true exactly when every requirement's check holds, that is, when none is missing |
| `Fixers.Eligible` | src/password.mjs:101-146 | the test each fixer applies to a drawn position; no contract of its own, characterised by `Fixers.FixRunsOutIff`, `Fixers.UppercaseStuckIff` and `Fixers.LowercaseStuckIff` |
| `Fixers.Rewrite` | src/password.mjs:101-146 | the change each fixer makes at an eligible position; no contract of its own, characterised by `Fixers.RewriteFixes` |
| `Fixers.RewriteFixes` | src/password.mjs:101-146 | an eligible rewrite fixes that position; the uppercase, lowercase and number rewrites make their check hold |
| `Fixers.Fix` | src/password.mjs:101-150 | the length fixer changes nothing; a TypeError exactly for a case fixer on `""`; the length is kept (one character from `""`); a single pass fixes one position; the uppercase, lowercase and number fixers make their check hold; the special fixer writes a character of `CHARS.special` other than `;` |
| `Fixers.FixTakesFirstEligible` | src/password.mjs:101-146 | a fixer rewrites the position of its first eligible draw, with that draw's value |
| `Fixers.FixRunsOutIff` | src/password.mjs:101-146 | a fixer runs out of draws exactly when no draw picks an eligible position |
| `Fixers.StuckRunsOut` | src/password.mjs:101-146 | a fixer with no eligible position retries without end (a `RangeError` in JavaScript) |
| `Fixers.UppercaseStuckIff` | src/password.mjs:101-111 | the uppercase fixer is stuck exactly on non-empty passwords with no small letter |
| `Fixers.LowercaseStuckIff` | src/password.mjs:112-122 | the lowercase fixer is stuck exactly on non-empty passwords with no capital letter |
| `Fixers.SpecialFixMayNotSatisfy` | src/password.mjs:123-134 | the special fixer can return a password that the special check still rejects |
| `Fixers.ApplyFixers` | src/password.mjs:152-155 | fixers keep a non-empty password's length; the last fixer's check holds when it is uppercase, lowercase or number |
| `Fixers.ApplyFixersChain` | src/password.mjs:152-155 | a successful run is a chain of passwords, each one fix of the next requirement away from the one before |
| `Fixers.ForceMeetRequirements` | src/password.mjs:97-156 | a password that meets every requirement is returned unchanged; otherwise a non-empty password keeps its length |
| `Fixers.ForceMeetFixesMissing` | src/password.mjs:97-156 | a successful forcing is a chain of one fix per missing requirement, in the order given, from the password to the result |
| `Fixers.ForceMeetSingle` | src/password.mjs:97-156 | with one requirement missing, the result is the rewrite at the first eligible draw of the first stream |
| `Fixers.ForceMeetIdempotent` | src/password.mjs:97-156 | a result that meets every requirement is returned unchanged by a second forcing, whatever that forcing draws |
| `Fixers.LaterFixUndoesEarlier` | src/password.mjs:152-155 | a later fixer can undo an earlier one, and the result is not checked again |
| `Fixers.LengthFixerKeepsShort` | src/password.mjs:147-150 | a too-short password is returned as it is, still too short |
| `Generator.GetChar` | src/password.mjs:181-186 | the character differs from the previous one and uses at least one and at most all of the draws |
| `Generator.GetCharInPool` | src/password.mjs:181-186 | the character comes from the alphabet |
| `Generator.GetCharFirstDifferent` | src/password.mjs:181-186 | the character is the one of the first draw that differs from the previous character, and the draws up to it are used |
| `Generator.GetCharNoneIff` | src/password.mjs:181-186 | no character is found exactly when every draw repeats the previous character |
| `Generator.Draft` | src/password.mjs:179-188 | the reference for the loop of `getChar` turns; no contract of its own, characterised by `Generator.DraftSucceeds`, `Generator.DraftRuns` and `Generator.DraftInPool` |
| `Generator.DraftSucceeds` | src/password.mjs:179-188 | when each draw differs from the one before, the loop takes one draw per character, in order |
| `Generator.DraftInPool` | src/password.mjs:179-188 | every character the loop produces comes from the alphabet |
| `Generator.DraftRuns` | src/password.mjs:179-188 | the loop produces the requested number of characters, no two equal neighbours, and never starts with the previous character |
| `Generator.DefaultLengthDraft` | src/password.mjs:177-188 | without a length, 20 characters are drafted, one draw each when neighbouring draws differ, and they make a raw password |
| `Generator.GenerateChars` | src/password.mjs:178-188 | the loop gives the reference draft of `getChar` turns; its result has the requested length (none when it is not positive), only pool characters, and no two equal neighbours |
| `Generator.GeneratedHasNoDigit` | src/password.mjs:178 | a raw password never meets the number requirement |
| `Generator.GenerateRandom` | src/password.mjs:177-191 | the result is the reference draft forced to meet the requirements, or runs out when the draft does; it has the requested length when that is positive |
| `Generator.EmptyDefaultRunsOut` | src/password.mjs:177-191 | a password of length 0 with the default requirements retries without end (a `RangeError` in JavaScript) |
| `Argv.BiMap` | src/cmd.mjs:23-32 | `createBiMap`; no contract of its own, characterised by `Argv.BiMapDomain`, `Argv.BiMapResolves` and `Argv.BiMapLatest` |
| `Argv.BiMapDomain` | src/cmd.mjs:23-32 | the bimap knows exactly the keys and long names the table declares, and maps each to some option key |
| `Argv.BiMapResolves` | src/cmd.mjs:23-32 | when no name is declared twice, each key maps to itself and each long name to its own key |
| `Argv.BiMapLatest` | src/cmd.mjs:23-32 | a name maps to the key of the last entry that declares it |
| `Argv.Step` | src/cmd.mjs:37-74 | one turn of the parse loop; no contract of its own, characterised by `Argv.StepWrites` and the `Argv.Step…` lemmas below |
| `Argv.Run` | src/cmd.mjs:37-74 | the parse loop over all arguments; no contract of its own, characterised by `Argv.RunKeys` and `Argv.LastAssignmentWins` |
| `Argv.Parse` | src/cmd.mjs:22-76 | `parse`: the loop from an empty map with the bimap of the declared options; no contract of its own, characterised by `Argv.RunKeys` and `Argv.SaveCommandLine` |
| `Argv.StepWrites` | src/cmd.mjs:37-74 | an option or command argument sets its own key and nothing else; a bare word sets the pending key, or is dropped when none is pending |
| `Argv.RunKeys` | src/cmd.mjs:37-74 | the result's keys are exactly those the arguments name themselves; the pending key is the previous argument's own key |
| `Argv.LastAssignmentWins` | src/cmd.mjs:37-74 | a key keeps its value through later arguments that neither name it nor supply its value |
| `Argv.StepLongFlag` | src/cmd.mjs:38-50 | `--name` without `=` sets the name's canonical key to `null` and makes it pending |
| `Argv.StepShortFlag` | src/cmd.mjs:51-54 | a single-dash argument is set to `null` as written, not canonicalised, and becomes pending |
| `Argv.StepCommand` | src/cmd.mjs:56-59 | a command word is set to `null` and becomes pending, even when an option was waiting for a value |
| `Argv.StepWord` | src/cmd.mjs:60-72 | any other word becomes the pending key's value and clears it; with nothing pending it is dropped |
| `Argv.StepAssignment` | src/cmd.mjs:38-45 | one `--name=rest` argument sets the name's key to the text of `rest` before its first `=`, and leaves nothing pending |
| `Argv.AssignmentSetsValue` | src/cmd.mjs:38-45 | `--name=rest` sets the name's key (its canonical short key) to the text between the first and second `=`, all of `rest` when it has no `=` |
| `Argv.SecondEqualsCutsValue` | src/cmd.mjs:38-45 | `--key=a=b` sets `-k` to `a` |
| `Argv.OptionTakesValue` | src/cmd.mjs:51-72 | a plain word after a single-dash option becomes its value |
| `Argv.CommandTakesValue` | src/cmd.mjs:55-72 | a command takes the plain word after it as its value |
| `Argv.CommandNotValue` | src/cmd.mjs:51-59 | a command never becomes an option's value: the option stays `null` and the command is pending |
| `Argv.Getx` | src/cmd.mjs:3-7 | the value of each key asked for, in order |
| `Argv.SaveCommandLine` | index.js:9-33 | `save email/work --key=abc -s store.json stray` yields `save`=`email/work`, `-k`=`abc`, `-s`=`store.json`, and no `-p` or `-a` |

## Left out

- **File I/O and the command-line front end.** Reading and writing the store
  file, prompts, printing, colours and `process.exit` are not modelled.
  `Store#initialize`, `Store#configure`, `Store#getStorePath`,
  `Store#removeKeystore`, `Store#test` and the git `Store#upload` are I/O
  around the modelled core. A save is a function from tree to tree; the
  write and the success message are not modelled.
- **The store-path and password branches of `getArgs`.** They check that a
  file exists or read a prompt. Only the key check and the reserved-name
  check are modelled.
- **`Store#update` and `Store#decrypt`.** The mutation and the write of
  `update` are commented out, so it only prints. `decrypt` has an empty
  body.
- **Outside the core.** `src/cli.mjs` wraps readline prompts, `spawnSync`
  and `chdir`; the prompts' answers are parameters here. `index.js` only
  dispatches to the `Store` methods, and `CMD#help` and `CMD#error` print.
- **Cryptography and key hashing.** AES-256-CBC, SHA-256, PBKDF2
  (`Password.hash`) and `crypto.randomBytes` are parameters: the `Cipher`
  fields, the `hash` function and the IV bytes. Any deterministic cipher may
  be passed in.
- **Promises.** Promises and `async` are modelled only where truthiness
  matters (`checkEncryptionKey`). Elsewhere a value stands for its resolved
  Promise.
- **The decryption failure path.** Node's `console.log` on a failed
  decryption is not modelled; a failed `Decrypt` is `None`.
- **`Password.configure`.** It is never called, so `Password.minLen`
  stays undefined.
- **The `Passwords` class** of `password.mjs` is commented out.
- **The instance methods `encrypt`/`decrypt` and the static
  `Password.encrypt`/`Password.decrypt`** are the same code as the exported
  `encrypt`/`decrypt`; one model covers all of them. The instance `hash`
  (digest as `ascii`) and the static `Password.hash` (digest as `hex`) differ
  only in PBKDF2's output, which is a parameter here.
- **Encryption of extra fields.** `getAdditionalFields` encrypts each value
  with the key; the model takes the values as given strings.
- **Argument parsing details:**
  - Command and option names are sets and maps, so JavaScript key order and
    inherited keys (`"toString" in {}`) are not modelled.
  - `Array.isArray` on a non-array option description is not modelled.
  - `free` words are dropped, as the source never reads them.
- **Case mapping** is ASCII only: `toUpperCase`/`toLowerCase` of other
  characters are not modelled.
- **Requirement names** are a datatype: an unknown name such as `"upper"`,
  which makes the source call `undefined`, is not modelled.
- **Lengths for `generateRandom`** are integers: `parseInt` of a non-number
  and fractional lengths are not modelled.
- **JSON values** in the tree are objects and strings only: numbers, arrays,
  `null` and booleans are not modelled.
- **Printing inside `get`.** `get` prints the fields of every leaf below a
  directory; the model gives the listing and, for a secret, its decrypted
  fields (`Store.Reveal`).
- **Termination.** `Fixers.Fix`, `Generator.GetChar` and
  `Store.AdditionalFields` consume finite streams. Retries that do not end
  throw a `RangeError` in JavaScript, as each retry is a nested call; the
  model reports them as an `OutOfDraws` failure or `None`, and does not
  model the stack depth at which the error comes.
- **Inherited object keys.** JavaScript's `in` also sees the names
  `Object.prototype` provides (`constructor`, `toString`, `__proto__`). The
  tree is a map, so `SecretTree.PasswordExists`, `SecretTree.WalkPath`,
  `Store.Save` and `Store.GetView` treat those names as absent. Only the
  assignment of an extra field named `__proto__` is modelled
  (`Store.SetField`).
- **Listing order and layout.** `SecretTree.Listing` is a set of key paths:
  the print order, indentation and colours of `printPasswordNames` are not
  modelled.
- Store.Reveal: states only that every field gets a value, not the
  decryption of each; `Store.SaveThenGet` states the decryption of the
  `password` field.
- Fixers.ApplyFixers: states the check of the last fixer only, because an
  earlier fix can be undone (`Fixers.LaterFixUndoesEarlier`).

## Findings

| source | as written | input that shows it | evidently intended | confidence | as-written member | corrected member |
|---|---|---|---|---|---|---|
| src/store.mjs:290-303 | `!this.checkEncryptionKey(key)` negates the Promise an `async` method returns, so it is always false | any key whose hash differs from the stored hash, e.g. stored hash `secret`, key `guess` under the identity hash | await the check, then reject a key whose hash differs from the stored one | high, not executed | `Store.WrongKeyAccepted` | `Store.AwaitedKeyRejected` |

=== FILE: argv.dfy ===
/** The command-line parser of `cmd.mjs`: `CMD.parse` folds the argument
    list into a map from option and command names to values, carrying one
    piece of state, the key still waiting for a value (`lastArg`). */
module Argv {
  import opened Wrappers
  import opened Text

  /** A value of the result map: `null` for a flag, or the text given. */
  datatype ArgValue = Null | Text(text: string)

  type ArgMap = map<string, ArgValue>

  /** One entry of the option table: the short key and its description
      array, whose first element is the long name when there are two. */
  datatype OptionSpec = OptionSpec(key: string, desc: seq<string>)

  /** The `config` of `new CMD(config)`: options in declaration order and the
      command names. */
  datatype Parser = Parser(options: seq<OptionSpec>, commands: set<string>)

  /** Whether the option entry gives its key a long name. */
  predicate HasLong(o: OptionSpec)
  {
    |o.desc| > 1
  }

  /** The names an option entry makes known: its key, then its long name. */
  predicate Names(o: OptionSpec, name: string)
  {
    name == o.key || (HasLong(o) && name == o.desc[0])
  }

  /** `createBiMap`: every option key maps to itself and every long name to
      its key; a later entry overwrites an earlier one. */
  function BiMap(options: seq<OptionSpec>): map<string, string>
    decreases |options|
  {
    if options == [] then map[]
    else
      var o := options[|options| - 1];
      var m := BiMap(options[..|options| - 1])[o.key := o.key];
      if HasLong(o) then m[o.desc[0] := o.key] else m
  }

  /** The bimap knows exactly the names the table declares, and sends each
      of them to some option key. */
  lemma {:induction false} BiMapDomain(options: seq<OptionSpec>)
    ensures forall k :: k in BiMap(options) <==> exists i :: 0 <= i < |options| && Names(options[i], k)
    ensures forall k :: k in BiMap(options) ==> exists i :: 0 <= i < |options| && BiMap(options)[k] == options[i].key
    decreases |options|
  {
    if options != [] {
      var init := options[..|options| - 1];
      BiMapDomain(init);
      assert forall i :: 0 <= i < |init| ==> init[i] == options[i];
    }
  }

  /** No name is declared twice: keys and long names are all distinct. */
  predicate Unambiguous(options: seq<OptionSpec>)
  {
    && (forall i :: 0 <= i < |options| ==> HasLong(options[i]) ==> options[i].desc[0] != options[i].key)
    && (forall i, j :: 0 <= i < j < |options| ==>
          !Names(options[j], options[i].key) &&
          (HasLong(options[i]) ==> !Names(options[j], options[i].desc[0])))
  }

  /** In a table where no name is declared twice, the bimap sends each key
      and each long name to the key of its own entry. */
  lemma {:induction false} BiMapResolves(options: seq<OptionSpec>, i: int)
    requires Unambiguous(options)
    requires 0 <= i < |options|
    ensures options[i].key in BiMap(options) && BiMap(options)[options[i].key] == options[i].key
    ensures HasLong(options[i]) ==>
      options[i].desc[0] in BiMap(options) && BiMap(options)[options[i].desc[0]] == options[i].key
    decreases |options|
  {
    var n := |options|;
    var o := options[n - 1];
    var init := options[..n - 1];
    var prev := BiMap(init);
    var m := prev[o.key := o.key];
    assert BiMap(options) == if HasLong(o) then m[o.desc[0] := o.key] else m;
    if i < n - 1 {
      assert forall a :: 0 <= a < |init| ==> init[a] == options[a];
      assert Unambiguous(init);
      BiMapResolves(init, i);
      var q := options[i];
      assert !Names(o, q.key);
      assert o.key != q.key && (HasLong(o) ==> o.desc[0] != q.key);
      assert m[q.key] == q.key;
      if HasLong(q) {
        assert !Names(o, q.desc[0]);
        assert m[q.desc[0]] == q.key;
      }
    } else {
      assert HasLong(o) ==> o.desc[0] != o.key;
    }
  }

  /** A name maps to the key of the last entry that declares it. */
  lemma {:induction false} BiMapLatest(options: seq<OptionSpec>, i: int, name: string)
    requires 0 <= i < |options| && Names(options[i], name)
    requires forall j :: i < j < |options| ==> !Names(options[j], name)
    ensures name in BiMap(options) && BiMap(options)[name] == options[i].key
    decreases |options|
  {
    var n := |options|;
    var init := options[..n - 1];
    if i < n - 1 {
      assert forall a :: 0 <= a < |init| ==> init[a] == options[a];
      BiMapLatest(init, i, name);
      assert !Names(options[n - 1], name);
    }
  }

  /** The key an argument names after canonicalisation. */
  function Canonical(bimap: map<string, string>, name: string): string
  {
    if name in bimap then bimap[name] else name
  }

  /** The parser's state: the map built so far and the pending key, `""`
      when none. */
  datatype State = State(args: ArgMap, pending: string)

  /** The key an argument writes itself, if any: a `--` argument its name
      before the first `=`, canonicalised; a `-` argument itself; a command
      word itself. A bare word writes only the pending key. */
  function KeyOf(p: Parser, bimap: map<string, string>, arg: string): Option<string>
  {
    if "--" <= arg then Some(Canonical(bimap, Split(arg, '=')[0]))
    else if "-" <= arg then Some(arg)
    else if arg in p.commands then Some(arg)
    else None
  }

  /** One turn of the loop of `CMD.parse`. */
  function Step(p: Parser, bimap: map<string, string>, st: State, arg: string): State
  {
    if "--" <= arg then
      var pieces := Split(arg, '=');
      var key := Canonical(bimap, pieces[0]);
      if '=' in arg then
        SplitCount(arg, '=');
        State(st.args[key := Text(pieces[1])], "")
      else State(st.args[key := Null], key)
    else if "-" <= arg then State(st.args[arg := Null], arg)
    else if arg in p.commands then State(st.args[arg := Null], arg)
    else if st.pending == "" then st
    else State(st.args[st.pending := Text(arg)], "")
  }

  /** What one turn writes: an option or command argument sets its own key
      and nothing else; a bare word sets the pending key, or is dropped when
      none is pending. Afterwards the pending key, if any, is the argument's
      own key. */
  lemma StepWrites(p: Parser, bimap: map<string, string>, st: State, arg: string)
    ensures var r := Step(p, bimap, st, arg);
            var key := KeyOf(p, bimap, arg);
            && (key.Some? ==> key.value in r.args && r.args == st.args[key.value := r.args[key.value]])
            && (key.None? ==> r.pending == "" && (st.pending == "" ==> r == st))
            && (key.None? && st.pending != "" ==> r.args == st.args[st.pending := Text(arg)])
            && (r.pending == "" || Some(r.pending) == key)
  {
  }

  /** The loop of `CMD.parse` over `argv`, from an empty map and no pending
      key. */
  function Run(p: Parser, bimap: map<string, string>, argv: seq<string>): State
    decreases |argv|
  {
    if argv == [] then State(map[], "")
    else Step(p, bimap, Run(p, bimap, argv[..|argv| - 1]), argv[|argv| - 1])
  }

  /** The keys of the result are exactly the keys the arguments write
      themselves: a bare word never adds a key, and the pending key is always
      one already written, by the argument just before. */
  lemma {:induction false} RunKeys(p: Parser, bimap: map<string, string>, argv: seq<string>)
    ensures var st := Run(p, bimap, argv);
            && (st.pending == "" || st.pending in st.args)
            && (st.pending != "" ==> |argv| > 0 && KeyOf(p, bimap, argv[|argv| - 1]) == Some(st.pending))
            && (forall k :: k in st.args <==> exists i :: 0 <= i < |argv| && KeyOf(p, bimap, argv[i]) == Some(k))
    decreases |argv|
  {
    if argv != [] {
      var init := argv[..|argv| - 1];
      RunKeys(p, bimap, init);
      StepWrites(p, bimap, Run(p, bimap, init), argv[|argv| - 1]);
      assert forall i :: 0 <= i < |init| ==> init[i] == argv[i];
    }
  }

  /** `CMD.parse(argv)`: the resulting map (the promise resolves to it). */
  function Parse(p: Parser, argv: seq<string>): ArgMap
  {
    Run(p, BiMap(p.options), argv).args
  }

  /** `Map#get`: the value, or `undefined` (`None`). */
  function Get(m: ArgMap, key: string): Option<ArgValue>
  {
    if key in m then Some(m[key]) else None
  }

  /** Running the loop over two halves in turn. */
  lemma {:induction false} RunAppend(p: Parser, bimap: map<string, string>, a: seq<string>, b: seq<string>)
    ensures Run(p, bimap, a + b) == RunFrom(p, bimap, Run(p, bimap, a), b)
    decreases |b|
  {
    if b == [] {
      assert a + b == a;
    } else {
      var b' := b[..|b| - 1];
      assert (a + b)[..|a + b| - 1] == a + b';
      RunAppend(p, bimap, a, b');
    }
  }

  /** The loop continued from a given state. */
  function RunFrom(p: Parser, bimap: map<string, string>, st: State, argv: seq<string>): State
    decreases |argv|
  {
    if argv == [] then st
    else Step(p, bimap, RunFrom(p, bimap, st, argv[..|argv| - 1]), argv[|argv| - 1])
  }

  /** Nothing else changes: arguments that never write key `k`, read while
      `k` is not pending, leave its value as it was. */
  lemma {:induction false} RunFromFrame(p: Parser, bimap: map<string, string>, st: State, argv: seq<string>, k: string)
    requires k == "" || st.pending != k
    requires forall i :: 0 <= i < |argv| ==> KeyOf(p, bimap, argv[i]) != Some(k)
    ensures Get(RunFrom(p, bimap, st, argv).args, k) == Get(st.args, k)
    ensures var r := RunFrom(p, bimap, st, argv); k == "" || r.pending != k
    decreases |argv|
  {
    if argv != [] {
      var init := argv[..|argv| - 1];
      assert forall i :: 0 <= i < |init| ==> init[i] == argv[i];
      RunFromFrame(p, bimap, st, init, k);
      StepWrites(p, bimap, RunFrom(p, bimap, st, init), argv[|argv| - 1]);
    }
  }

  /** A repeated key holds its last assignment: once an argument has set
      `k`, later arguments that neither write `k` nor follow it as a value
      keep that value. */
  lemma LastAssignmentWins(p: Parser, bimap: map<string, string>, pre: seq<string>, post: seq<string>, k: string)
    requires k == "" || Run(p, bimap, pre).pending != k
    requires forall i :: 0 <= i < |post| ==> KeyOf(p, bimap, post[i]) != Some(k)
    ensures Get(Run(p, bimap, pre + post).args, k) == Get(Run(p, bimap, pre).args, k)
  {
    RunAppend(p, bimap, pre, post);
    RunFromFrame(p, bimap, Run(p, bimap, pre), post, k);
  }

  /** `--name=rest` sets the canonical key of `name` to the text between
      the first and the second `=` (all of `rest` when it has no `=`), and
      leaves nothing pending. */
  lemma StepAssignment(p: Parser, bimap: map<string, string>, st: State, name: string, rest: string)
    requires "--" <= name && '=' !in name
    ensures Step(p, bimap, st, name + "=" + rest) ==
      State(st.args[Canonical(bimap, name) := Text(Split(rest, '=')[0])], "")
  {
    var arg := name + "=" + rest;
    assert arg == name + ['='] + rest;
    SplitFirst(name, rest, '=');
    assert "--" <= arg by {
      assert arg[..2] == name[..2];
    }
    assert Split(arg, '=')[1] == Split(rest, '=')[0] by {
      SplitAt(name, rest, '=');
      SplitNoSeparator(name, '=');
    }
  }

  /** `--name` without `=`: the canonical key of `name` is set to `null` and
      becomes pending. */
  lemma StepLongFlag(p: Parser, bimap: map<string, string>, st: State, name: string)
    requires "--" <= name && '=' !in name
    ensures Step(p, bimap, st, name) ==
      State(st.args[Canonical(bimap, name) := Null], Canonical(bimap, name))
  {
    SplitNoSeparator(name, '=');
  }

  /** A single-dash argument is set to `null` as it is, never canonicalised,
      and becomes pending. */
  lemma StepShortFlag(p: Parser, bimap: map<string, string>, st: State, opt: string)
    requires "-" <= opt && !("--" <= opt)
    ensures Step(p, bimap, st, opt) == State(st.args[opt := Null], opt)
  {
  }

  /** A command word is set to `null` and becomes pending, even when an
      option was waiting for a value. */
  lemma StepCommand(p: Parser, bimap: map<string, string>, st: State, cmd: string)
    requires !("-" <= cmd) && cmd in p.commands
    ensures Step(p, bimap, st, cmd) == State(st.args[cmd := Null], cmd)
  {
  }

  /** Any other word becomes the value of the pending key and clears it; with
      nothing pending it is dropped. */
  lemma StepWord(p: Parser, bimap: map<string, string>, st: State, word: string)
    requires !("-" <= word) && word !in p.commands
    ensures st.pending == "" ==> Step(p, bimap, st, word) == st
    ensures st.pending != "" ==> Step(p, bimap, st, word) == State(st.args[st.pending := Text(word)], "")
  {
  }

  lemma RunSnoc(p: Parser, bimap: map<string, string>, argv: seq<string>, arg: string)
    ensures Run(p, bimap, argv + [arg]) == Step(p, bimap, Run(p, bimap, argv), arg)
  {
    assert (argv + [arg])[..|argv|] == argv;
  }

  /** `--name=rest` at the end of any command line sets the canonical key
      to the text of `rest` before its first `=`: `--key=a=b` gives `a`. */
  lemma AssignmentSetsValue(p: Parser, bimap: map<string, string>, argv: seq<string>, name: string, rest: string)
    requires "--" <= name && '=' !in name
    ensures var st := Run(p, bimap, argv + [name + "=" + rest]);
            && Get(st.args, Canonical(bimap, name)) == Some(Text(Split(rest, '=')[0]))
            && ('=' !in rest ==> Get(st.args, Canonical(bimap, name)) == Some(Text(rest)))
            && st.pending == ""
  {
    RunSnoc(p, bimap, argv, name + "=" + rest);
    StepAssignment(p, bimap, Run(p, bimap, argv), name, rest);
    if '=' !in rest {
      SplitNoSeparator(rest, '=');
    }
  }

  /** `--key=a=b` sets `-k` to `a`: the text after the second `=` is lost. */
  lemma SecondEqualsCutsValue()
    ensures Get(Parse(SNAKSTORE, ["--key=a=b"]), "-k") == Some(Text("a"))
  {
    LongKeyResolves();
    assert "--key" + "=" + "a=b" == "--key=a=b";
    assert "a=b" == "a" + ['='] + "b";
    SplitFirst("a", "b", '=');
    assert [] + ["--key=a=b"] == ["--key=a=b"];
    AssignmentSetsValue(SNAKSTORE, BiMap(SNAKSTORE.options), [], "--key", "a=b");
  }

  /** A word that is not an option or a command becomes the value of the
      single-dash option just before it. */
  lemma OptionTakesValue(p: Parser, bimap: map<string, string>, argv: seq<string>, opt: string, word: string)
    requires "-" <= opt && !("--" <= opt)
    requires !("-" <= word) && word !in p.commands
    ensures var st := Run(p, bimap, argv + [opt, word]);
            && Get(st.args, opt) == Some(Text(word))
            && st.pending == ""
  {
    RunSnoc(p, bimap, argv, opt);
    StepShortFlag(p, bimap, Run(p, bimap, argv), opt);
    assert argv + [opt] + [word] == argv + [opt, word];
    RunSnoc(p, bimap, argv + [opt], word);
    StepWord(p, bimap, Run(p, bimap, argv + [opt]), word);
  }

  /** A command word takes the word after it as its value. */
  lemma CommandTakesValue(p: Parser, bimap: map<string, string>, argv: seq<string>, cmd: string, word: string)
    requires cmd in p.commands && !("-" <= cmd) && cmd != ""
    requires !("-" <= word) && word !in p.commands
    ensures Get(Run(p, bimap, argv + [cmd, word]).args, cmd) == Some(Text(word))
  {
    RunSnoc(p, bimap, argv, cmd);
    StepCommand(p, bimap, Run(p, bimap, argv), cmd);
    assert argv + [cmd] + [word] == argv + [cmd, word];
    RunSnoc(p, bimap, argv + [cmd], word);
    StepWord(p, bimap, Run(p, bimap, argv + [cmd]), word);
  }

  /** A command word never becomes a value: after an option that awaits one,
      the option stays `null` and the command is pending instead. */
  lemma CommandNotValue(p: Parser, bimap: map<string, string>, argv: seq<string>, opt: string, cmd: string)
    requires "-" <= opt && !("--" <= opt)
    requires cmd in p.commands && !("-" <= cmd)
    ensures var st := Run(p, bimap, argv + [opt, cmd]);
            && Get(st.args, opt) == Some(Null)
            && Get(st.args, cmd) == Some(Null)
            && st.pending == cmd
  {
    RunSnoc(p, bimap, argv, opt);
    StepShortFlag(p, bimap, Run(p, bimap, argv), opt);
    assert argv + [opt] + [cmd] == argv + [opt, cmd];
    RunSnoc(p, bimap, argv + [opt], cmd);
    StepCommand(p, bimap, Run(p, bimap, argv + [opt]), cmd);
    assert opt != cmd;
  }

  /** `ArgMap#getx(...keys)`: the value of each key, in order. */
  function Getx(m: ArgMap, keys: seq<string>): (r: seq<Option<ArgValue>>)
    ensures |r| == |keys|
    ensures forall i :: 0 <= i < |keys| ==> r[i] == Get(m, keys[i])
    decreases |keys|
  {
    if keys == [] then [] else [Get(m, keys[0])] + Getx(m, keys[1..])
  }

  /** The option table and commands of the `snakstore` command line. */
  const SNAKSTORE: Parser := Parser(
    [ OptionSpec("-h", ["--help", "Get Help"]),
      OptionSpec("-k", ["--key", "[key] Specify encryption/decryption key"]),
      OptionSpec("-g", ["--generate", "[length] Generate random password of {length}"]),
      OptionSpec("-p", ["--password", "[password] Specify the path of the password"]),
      OptionSpec("-s", ["--store-path", "[filename] Specify the path of the key store"]),
      OptionSpec("-a", ["--add-fields", "Add additional fields to password"]),
      OptionSpec("-ac", ["--add-config", "Add configuration"]),
      OptionSpec("--remove-keystore", ["Remove a keystore"]) ],
    {"save", "decrypt", "encrypt", "get", "init", "rm", "ls", "upload", "update", "config", "test"})

  /** A word that does not start with `-`. */
  lemma Undashed(w: string)
    requires |w| > 0 && w[0] != '-'
    ensures !("-" <= w) && !("--" <= w)
  {
    assert "-"[0] != w[0];
  }

  /** A single-dash word. */
  lemma ShortFlag(w: string)
    requires |w| >= 2 && w[0] == '-' && w[1] != '-'
    ensures "-" <= w && !("--" <= w)
  {
    assert w[..1] == "-";
    assert "--"[1] != w[1];
  }

  /** `snakstore save email/work --key=abc -s store.json stray`: the long
      name is canonicalised to `-k`, the command and `-s` take the words after
      them, and the stray word is dropped. */
  lemma SaveCommandLine()
    ensures var m := Parse(SNAKSTORE, ["save", "email/work", "--key=abc", "-s", "store.json", "stray"]);
            Getx(m, ["save", "-p", "-k", "-s", "-a"]) ==
              [Some(Text("email/work")), None, Some(Text("abc")), Some(Text("store.json")), None]
  {
    SampleMap();
    SampleLookups();
  }

  /** The words of the sample command line, classified. */
  lemma SampleWords()
    ensures "save" in SNAKSTORE.commands && !("-" <= "save")
    ensures "email/work" !in SNAKSTORE.commands && !("-" <= "email/work")
    ensures "store.json" !in SNAKSTORE.commands && !("-" <= "store.json")
    ensures "stray" !in SNAKSTORE.commands && !("-" <= "stray")
    ensures "-" <= "-s" && !("--" <= "-s")
    ensures "--" <= "--key" && '=' !in "--key" && '=' !in "abc"
    ensures "--key" + "=" + "abc" == "--key=abc"
  {
    Undashed("save");
    Undashed("email/work");
    Undashed("store.json");
    Undashed("stray");
    ShortFlag("-s");
    assert "--key"[..2] == "--";
  }

  /** The map that command line parses to. */
  lemma SampleMap()
    ensures var m0: ArgMap := map[];
            Parse(SNAKSTORE, ["save", "email/work", "--key=abc", "-s", "store.json", "stray"]) ==
              m0["save" := Text("email/work")]["-k" := Text("abc")]["-s" := Text("store.json")]
  {
    var bimap := BiMap(SNAKSTORE.options);
    LongKeyResolves();
    SampleWords();
    CommandLineShape(SNAKSTORE, bimap, "save", "email/work", "--key", "abc", "-s", "store.json", "stray");
  }

  lemma SampleLookups()
    ensures var m0: ArgMap := map[];
            var m := m0["save" := Text("email/work")]["-k" := Text("abc")]["-s" := Text("store.json")];
            Getx(m, ["save", "-p", "-k", "-s", "-a"]) ==
              [Some(Text("email/work")), None, Some(Text("abc")), Some(Text("store.json")), None]
  {
    var m0: ArgMap := map[];
    var m := m0["save" := Text("email/work")]["-k" := Text("abc")]["-s" := Text("store.json")];
    assert Get(m, "save") == Some(Text("email/work"));
    assert Get(m, "-p") == None;
    assert Get(m, "-k") == Some(Text("abc"));
    assert Get(m, "-s") == Some(Text("store.json"));
    assert Get(m, "-a") == None;
  }

  /** `--key` names `-k` in the table. */
  lemma LongKeyResolves()
    ensures Canonical(BiMap(SNAKSTORE.options), "--key") == "-k"
  {
    var options := SNAKSTORE.options;
    assert Names(options[1], "--key");
    forall j | 1 < j < |options| ensures !Names(options[j], "--key") {
      assert options[j].key[1] != 'k' || |options[j].key| != 2;
      assert HasLong(options[j]) ==> options[j].desc[0][2] != 'k';
    }
    BiMapLatest(options, 1, "--key");
  }

  /** The first three arguments: a command, its path and a long option
      with `=`. */
  lemma CommandLinePrefix(p: Parser, bimap: map<string, string>, cmd: string, path: string,
                          name: string, value: string)
    requires cmd in p.commands && cmd != "" && !("-" <= cmd)
    requires path !in p.commands && !("-" <= path)
    requires "--" <= name && '=' !in name && '=' !in value
    ensures var m0: ArgMap := map[];
            Run(p, bimap, [cmd, path, name + "=" + value]) ==
              State(m0[cmd := Text(path)][Canonical(bimap, name) := Text(value)], "")
  {
    var m0: ArgMap := map[];
    var argv := [cmd, path, name + "=" + value];
    var a1, a2 := argv[..1], argv[..2];
    assert a1 == [] + [argv[0]] && a2 == a1 + [argv[1]] && argv == a2 + [argv[2]];
    RunSnoc(p, bimap, [], cmd);
    StepCommand(p, bimap, Run(p, bimap, []), cmd);
    var s1 := State(m0[cmd := Null], cmd);
    assert Run(p, bimap, a1) == s1;
    RunSnoc(p, bimap, a1, path);
    StepWord(p, bimap, s1, path);
    var s2 := State(m0[cmd := Text(path)], "");
    assert Run(p, bimap, a2) == s2;
    RunSnoc(p, bimap, a2, name + "=" + value);
    StepAssignment(p, bimap, s2, name, value);
    SplitNoSeparator(value, '=');
  }

  /** The shape of that command line on any table: a command and its
      argument, a `--name=value` assignment, a single-dash option and its
      argument, and a stray word. */
  lemma CommandLineShape(p: Parser, bimap: map<string, string>, cmd: string, path: string,
                         name: string, value: string, opt: string, file: string, stray: string)
    requires cmd in p.commands && cmd != "" && !("-" <= cmd)
    requires path !in p.commands && !("-" <= path)
    requires "--" <= name && '=' !in name && '=' !in value
    requires "-" <= opt && !("--" <= opt)
    requires file !in p.commands && !("-" <= file)
    requires stray !in p.commands && !("-" <= stray)
    ensures var key := Canonical(bimap, name);
            var m := Run(p, bimap, [cmd, path, name + "=" + value, opt, file, stray]).args;
            var m0: ArgMap := map[];
            m == m0[cmd := Text(path)][key := Text(value)][opt := Text(file)]
  {
    var key := Canonical(bimap, name);
    var m0: ArgMap := map[];
    var argv := [cmd, path, name + "=" + value, opt, file, stray];
    var a3, a4, a5 := argv[..3], argv[..4], argv[..5];
    assert a3 == [cmd, path, name + "=" + value];
    assert a4 == a3 + [argv[3]] && a5 == a4 + [argv[4]] && argv == a5 + [argv[5]];
    CommandLinePrefix(p, bimap, cmd, path, name, value);
    var s3 := State(m0[cmd := Text(path)][key := Text(value)], "");
    assert Run(p, bimap, a3) == s3;
    RunSnoc(p, bimap, a3, opt);
    StepShortFlag(p, bimap, s3, opt);
    var s4 := State(s3.args[opt := Null], opt);
    assert Run(p, bimap, a4) == s4;
    RunSnoc(p, bimap, a4, file);
    StepWord(p, bimap, s4, file);
    var s5 := State(s3.args[opt := Text(file)], "");
    assert s4.args[opt := Text(file)] == s5.args;
    assert Run(p, bimap, a5) == s5;
    RunSnoc(p, bimap, a5, stray);
    StepWord(p, bimap, s5, stray);
  }
}

=== FILE: envelope.dfy ===
/** The ciphertext envelope of `encrypt` / `decrypt` in `password.mjs`:
    `ivHex + ":" + cipherHex`, split on the first `:` when decrypting.
    AES-256 in CBC mode and SHA-256 are not modelled; they are the function
    fields of a `Cipher` value, so every property below holds for any
    deterministic cipher passed in. */
module Envelope {
  import opened Wrappers
  import opened Text

  type byte = x: int | 0 <= x < 256

  /** A lower-case hex digit. */
  function HexDigit(n: int): (c: char)
    requires 0 <= n < 16
    ensures c != ':'
  {
    if n < 10 then ('0' as int + n) as char else ('a' as int + n - 10) as char
  }

  /** `Buffer#toString('hex')`: two lower-case hex digits per byte. */
  function Hex(bs: seq<byte>): (r: string)
    ensures |r| == 2 * |bs|
    ensures ':' !in r
  {
    if bs == [] then ""
    else [HexDigit(bs[0] / 16), HexDigit(bs[0] % 16)] + Hex(bs[1..])
  }

  /** The value of one hex digit; both cases are accepted. */
  function HexValue(c: char): Option<int>
  {
    if '0' <= c <= '9' then Some(c as int - '0' as int)
    else if 'a' <= c <= 'f' then Some(c as int - 'a' as int + 10)
    else if 'A' <= c <= 'F' then Some(c as int - 'A' as int + 10)
    else None
  }

  /** `Buffer.from(s, 'hex')`: decodes digit pairs from the left and stops at
      the first pair that is not two hex digits; a trailing odd digit is
      dropped. */
  function FromHex(s: string): seq<byte>
  {
    if |s| < 2 then []
    else match (HexValue(s[0]), HexValue(s[1]))
      case (Some(hi), Some(lo)) => [hi * 16 + lo] + FromHex(s[2..])
      case _ => []
  }

  /** Hex decoding inverts hex encoding. */
  lemma {:induction false} HexRoundTrip(bs: seq<byte>)
    ensures FromHex(Hex(bs)) == bs
  {
    if bs != [] {
      var s := Hex(bs);
      assert s[2..] == Hex(bs[1..]);
      assert HexValue(s[0]) == Some(bs[0] / 16);
      assert HexValue(s[1]) == Some(bs[0] % 16);
      HexRoundTrip(bs[1..]);
    }
  }

  /** The cryptographic primitives, left uninterpreted:
      `digest` is the base64 SHA-256 digest of the passphrase;
      `encipher(key, iv, plaintext)` and `decipher(key, iv, ciphertext)` are
      AES-256-CBC, failing (`None`) where Node's crypto would throw. */
  datatype Cipher = Cipher(
    digest: string -> string,
    encipher: (string, seq<byte>, string) -> Option<seq<byte>>,
    decipher: (string, seq<byte>, seq<byte>) -> Option<string>)

  /** `decipher` undoes `encipher` under the same key and IV. */
  ghost predicate Inverse(c: Cipher)
  {
    forall key, iv, plain :: c.encipher(key, iv, plain).Some? ==>
      c.decipher(key, iv, c.encipher(key, iv, plain).value) == Some(plain)
  }

  /** The key: the first 32 characters of the digest (`substr(0, 32)`). */
  function DeriveKey(c: Cipher, passphrase: string): (r: string)
    ensures |r| == if |c.digest(passphrase)| < 32 then |c.digest(passphrase)| else 32
    ensures r <= c.digest(passphrase)
  {
    var d := c.digest(passphrase);
    if |d| <= 32 then d else d[..32]
  }

  function Format(ivHex: string, cipherHex: string): string
  {
    ivHex + ":" + cipherHex
  }

  /** `text.split(':')`: the first piece is the IV, the rest rejoined with `:`
      is the ciphertext. */
  function Parse(text: string): (string, string)
  {
    var parts := Split(text, ':');
    (parts[0], Join(parts[1..], ':'))
  }

  /** Parsing inverts formatting whenever the IV part has no `:`, whatever the
      ciphertext part holds. */
  lemma ParseFormat(ivHex: string, cipherHex: string)
    requires ':' !in ivHex
    ensures Parse(Format(ivHex, cipherHex)) == (ivHex, cipherHex)
  {
    assert Format(ivHex, cipherHex) == ivHex + [':'] + cipherHex;
    SplitFirst(ivHex, cipherHex, ':');
  }

  /** Formatting inverts parsing on every text that has a `:`. */
  lemma FormatParse(text: string)
    requires ':' in text
    ensures Format(Parse(text).0, Parse(text).1) == text
  {
    var parts := Split(text, ':');
    SplitCount(text, ':');
    assert Join(parts, ':') == parts[0] + [':'] + Join(parts[1..], ':');
  }

  /** `encrypt(plainText, encryptionKey)` with the random IV passed in:
      `undefined` when the cipher throws. */
  function Encrypt(c: Cipher, plain: string, passphrase: string, iv: seq<byte>): (r: Option<string>)
    ensures r.Some? <==> c.encipher(DeriveKey(c, passphrase), iv, plain).Some?
    ensures r.Some? ==> Parse(r.value).0 == Hex(iv)
    ensures r.Some? ==> Parse(r.value).1 == Hex(c.encipher(DeriveKey(c, passphrase), iv, plain).value)
  {
    match c.encipher(DeriveKey(c, passphrase), iv, plain)
    case None => None
    case Some(ct) =>
      ParseFormat(Hex(iv), Hex(ct));
      Some(Format(Hex(iv), Hex(ct)))
  }

  /** `decrypt(encryptedText, encryptionKey)`: `undefined` when the cipher throws. */
  function Decrypt(c: Cipher, text: string, passphrase: string): Option<string>
  {
    var (ivHex, cipherHex) := Parse(text);
    c.decipher(DeriveKey(c, passphrase), FromHex(ivHex), FromHex(cipherHex))
  }

  /** Decrypting an envelope with the passphrase that sealed it gives the
      plaintext back. */
  lemma EncryptDecrypt(c: Cipher, plain: string, passphrase: string, iv: seq<byte>)
    requires Inverse(c)
    requires Encrypt(c, plain, passphrase, iv).Some?
    ensures Decrypt(c, Encrypt(c, plain, passphrase, iv).value, passphrase) == Some(plain)
  {
    var key := DeriveKey(c, passphrase);
    var ct := c.encipher(key, iv, plain).value;
    ParseFormat(Hex(iv), Hex(ct));
    HexRoundTrip(iv);
    HexRoundTrip(ct);
  }

  /** Envelopes sealed with different IVs differ, whatever the plaintexts
      and passphrases. */
  lemma DistinctIvsDistinctEnvelopes(c: Cipher, p1: string, k1: string, iv1: seq<byte>,
                                     p2: string, k2: string, iv2: seq<byte>)
    requires iv1 != iv2
    requires Encrypt(c, p1, k1, iv1).Some? && Encrypt(c, p2, k2, iv2).Some?
    ensures Encrypt(c, p1, k1, iv1) != Encrypt(c, p2, k2, iv2)
  {
    HexRoundTrip(iv1);
    HexRoundTrip(iv2);
  }
}

=== FILE: fixers.dfy ===
/** The requirement fixers of `Password.forceMeetRequirements`. Each fixer
    draws a random position and rewrites it when its test lets it, otherwise
    calls itself to draw again. The random numbers are an explicit stream of
    draws; a stream that runs out stands for retries that do not end, which
    in JavaScript (no tail calls) overflow the stack with a `RangeError`. */
module Fixers {
  import opened Wrappers
  import opened Text
  import opened Requirements

  datatype FixError =
    | TypeError    // a case fixer calls a method on `undefined` (`""[0]`)
    | OutOfDraws   // unbounded retries: the nested calls end in a `RangeError`

  /** The random numbers one attempt draws: `value` picks the character the
      special and number fixers write, `position` the index to rewrite. */
  datatype Draw = Draw(value: nat, position: nat)

  /** `rand(max)`, `Math.floor(Math.random() * max)`, with the random number
      given as a natural number reduced modulo `max`; `rand(0)` is 0. */
  function Rand(d: nat, max: nat): (r: nat)
    ensures max > 0 ==> r < max
    ensures max == 0 ==> r == 0
  {
    if max == 0 then 0 else d % max
  }

  /** The characters the special fixer can write: it draws with
      `rand(CHARS.special.length - 1)`, which never picks the last one. */
  const WRITTEN_SPECIALS: string := SPECIAL_CHARS[..|SPECIAL_CHARS| - 1]

  /** `str.slice(0, i) + c + str.slice(i + 1)`. */
  function Splice(s: string, i: nat, c: char): (r: string)
    requires i <= |s|
    ensures i < |s| ==> r == s[i := c]
    ensures i == |s| ==> r == s + [c]
  {
    s[..i] + [c] + (if i < |s| then s[i + 1..] else "")
  }

  /** Whether an attempt may rewrite position `i`. Indexing an empty string
      gives `undefined`: the case fixers throw calling a method on it, the
      special and number fixers find it in neither alphabet. */
  function Eligible(req: Req, s: string, i: nat): Result<bool, FixError>
    requires req != Length
    requires i < |s| || i == 0
  {
    match req
    case Uppercase => if i < |s| then Success(UpperChar(s[i]) != s[i]) else Failure(TypeError)
    case Lowercase => if i < |s| then Success(LowerChar(s[i]) != s[i]) else Failure(TypeError)
    case Special => Success(!(i < |s| && s[i] in SPECIAL_CHARS))
    case Number => Success(!(i < |s| && s[i] in NUMBER_CHARS))
  }

  /** The rewrite of an eligible position. */
  function Rewrite(req: Req, s: string, i: nat, value: nat): string
    requires req != Length
    requires i < |s| || i == 0
    requires req == Uppercase || req == Lowercase ==> i < |s|
  {
    match req
    case Uppercase => s[i := UpperChar(s[i])]
    case Lowercase => s[i := LowerChar(s[i])]
    case Special => Splice(s, i, SPECIAL_CHARS[Rand(value, |SPECIAL_CHARS| - 1)])
    case Number => Splice(s, i, NUMBER_CHARS[Rand(value, 10)])
  }

  /** `t` is `s` with position `i` fixed for `req`: a small letter made
      capital, a capital made small, or a character outside the alphabet
      replaced by one inside it (on an empty string: the one-character
      string of it). Nothing else differs. */
  predicate FixedAt(req: Req, s: string, t: string, i: nat)
  {
    match req
    case Uppercase => i < |s| && IsSmall(s[i]) && t == s[i := UpperChar(s[i])]
    case Lowercase => i < |s| && IsCapital(s[i]) && t == s[i := LowerChar(s[i])]
    case Special =>
      if s == "" then i == 0 && |t| == 1 && t[0] in WRITTEN_SPECIALS
      else i < |s| && |t| == |s| && s[i] !in SPECIAL_CHARS && t == s[i := t[i]] && t[i] in WRITTEN_SPECIALS
    case Number =>
      if s == "" then i == 0 && |t| == 1 && t[0] in NUMBER_CHARS
      else i < |s| && |t| == |s| && s[i] !in NUMBER_CHARS && t == s[i := t[i]] && t[i] in NUMBER_CHARS
    case Length => t == s
  }

  /** An eligible rewrite fixes the position, and the uppercase, lowercase and
      number fixes establish their checker. */
  lemma RewriteFixes(req: Req, s: string, i: nat, value: nat)
    requires req != Length
    requires i < |s| || i == 0
    requires Eligible(req, s, i) == Success(true)
    ensures FixedAt(req, s, Rewrite(req, s, i, value), i)
    ensures req == Uppercase || req == Lowercase || req == Number ==> Check(req, Rewrite(req, s, i, value))
  {
    var t := Rewrite(req, s, i, value);
    match req
    case Uppercase =>
      assert IsCapital(t[i]);
      UppercaseIffCapital(t);
    case Lowercase =>
      assert IsSmall(t[i]);
      LowercaseIffSmall(t);
    case Special =>
      var k := Rand(value, |SPECIAL_CHARS| - 1);
      assert t[i] == WRITTEN_SPECIALS[k];
    case Number =>
      assert IsDigit(t[i]);
      NumberIffDigit(t);
  }

  /** One fixer, `reqFixers[req](str, numIters)`. The length fixer appends
      `Password.generateRandom(Password.minLen - str.length, [])`; the public
      `Password.minLen` is only set by `Password.configure`, which nothing
      calls, so the count is `NaN`, the generated text is empty and the
      password is returned unchanged. */
  function Fix(req: Req, s: string, numIters: int, draws: seq<Draw>): (r: Result<string, FixError>)
    ensures req == Length ==> r == Success(s)
    ensures r.Failure? && r.error == TypeError <==>
      s == "" && (req == Uppercase || req == Lowercase) && draws != []
    ensures r.Success? && s != "" ==> |r.value| == |s|
    ensures r.Success? && s == "" && req != Length ==> |r.value| == 1
    ensures r.Success? && req != Length && numIters <= 1 ==> exists i :: FixedAt(req, s, r.value, i)
    ensures r.Success? && (req == Uppercase || req == Lowercase || req == Number) ==> Check(req, r.value)
    ensures r.Success? && req == Special ==> exists j :: 0 <= j < |r.value| && r.value[j] in WRITTEN_SPECIALS
    decreases |draws|
  {
    if req == Length then Success(s)
    else if draws == [] then Failure(OutOfDraws)
    else
      var i := Rand(draws[0].position, |s|);
      match Eligible(req, s, i)
      case Failure(e) => Failure(e)
      case Success(ok) =>
        if !ok then Fix(req, s, numIters, draws[1..])
        else
          var t := Rewrite(req, s, i, draws[0].value);
          RewriteFixes(req, s, i, draws[0].value);
          assert req == Special ==> t[i] in WRITTEN_SPECIALS;
          if numIters > 1 then Fix(req, t, numIters - 1, draws[1..])
          else Success(t)
  }

  /** The position a draw picks in `s`. */
  function Position(s: string, d: Draw): (r: nat)
    ensures r < |s| || r == 0
  {
    Rand(d.position, |s|)
  }

  /** A single pass takes the first eligible draw: the draws before it are
      spent on retries, and its position is rewritten with its value. */
  lemma {:induction false} FixTakesFirstEligible(req: Req, s: string, draws: seq<Draw>, k: nat)
    requires req != Length && k < |draws|
    requires forall j :: 0 <= j < k ==> Eligible(req, s, Position(s, draws[j])) == Success(false)
    requires Eligible(req, s, Position(s, draws[k])) == Success(true)
    ensures (req == Uppercase || req == Lowercase ==> Position(s, draws[k]) < |s|) &&
      Fix(req, s, 1, draws) == Success(Rewrite(req, s, Position(s, draws[k]), draws[k].value))
    decreases k
  {
    if k > 0 {
      assert Eligible(req, s, Position(s, draws[0])) == Success(false);
      FixTakesFirstEligible(req, s, draws[1..], k - 1);
    }
  }

  /** A single pass runs out of draws exactly when no draw is eligible. */
  lemma {:induction false} FixRunsOutIff(req: Req, s: string, draws: seq<Draw>)
    requires req != Length
    ensures Fix(req, s, 1, draws) == Failure(OutOfDraws) <==>
      forall j :: 0 <= j < |draws| ==> Eligible(req, s, Position(s, draws[j])) == Success(false)
    decreases |draws|
  {
    if draws != [] {
      FixRunsOutIff(req, s, draws[1..]);
      assert forall j :: 1 <= j < |draws| ==> draws[j] == draws[1..][j - 1];
    }
  }

  /** No attempt of the fixer can ever rewrite a position of `s`. */
  predicate Stuck(req: Req, s: string)
    requires req != Length
  {
    s != "" && forall i :: 0 <= i < |s| ==> Eligible(req, s, i) == Success(false)
  }

  /** A stuck fixer retries until the draws run out: on a real random source
      every retry is one more nested call, until the stack overflows with a
      `RangeError`. */
  lemma {:induction false} StuckRunsOut(req: Req, s: string, numIters: int, draws: seq<Draw>)
    requires req != Length && Stuck(req, s)
    ensures Fix(req, s, numIters, draws) == Failure(OutOfDraws)
    decreases |draws|
  {
    if draws != [] {
      StuckRunsOut(req, s, numIters, draws[1..]);
    }
  }

  /** The uppercase fixer is stuck exactly on the non-empty strings with no
      small letter — for example a password of digits and symbols that the
      uppercase checker rejected. */
  lemma UppercaseStuckIff(s: string)
    ensures Stuck(Uppercase, s) <==> s != "" && !HasLowercase(s)
  {
    LowercaseIffSmall(s);
    if s != "" && !HasLowercase(s) {
      forall i | 0 <= i < |s| ensures Eligible(Uppercase, s, i) == Success(false) {
        assert !IsSmall(s[i]);
      }
    }
    if Stuck(Uppercase, s) {
      forall i | 0 <= i < |s| ensures !IsSmall(s[i]) {
        assert Eligible(Uppercase, s, i) == Success(false);
      }
    }
  }

  /** The lowercase fixer is stuck exactly on the non-empty strings with no
      capital letter. */
  lemma LowercaseStuckIff(s: string)
    ensures Stuck(Lowercase, s) <==> s != "" && !HasUppercase(s)
  {
    UppercaseIffCapital(s);
    if s != "" && !HasUppercase(s) {
      forall i | 0 <= i < |s| ensures Eligible(Lowercase, s, i) == Success(false) {
        assert !IsCapital(s[i]);
      }
    }
    if Stuck(Lowercase, s) {
      forall i | 0 <= i < |s| ensures !IsCapital(s[i]) {
        assert Eligible(Lowercase, s, i) == Success(false);
      }
    }
  }

  /** The special fixer tests against `CHARS.special` while the checker
      accepts fewer characters: it can write `<` and stop, leaving a password
      the special checker still rejects. */
  lemma SpecialFixMayNotSatisfy()
    ensures Fix(Special, "abcdefgh", 1, [Draw(10, 0)]) == Success("<bcdefgh")
    ensures !HasSpecial("<bcdefgh")
  {
    assert Eligible(Special, "abcdefgh", 0) == Success(true) by {
      assert 'a' !in SPECIAL_CHARS;
    }
    assert Rewrite(Special, "abcdefgh", 0, 10) == "<bcdefgh" by {
      assert SPECIAL_CHARS[10] == '<';
      assert Splice("abcdefgh", 0, '<') == "<bcdefgh";
    }
    NoCheckedSpecial();
  }

  lemma NoCheckedSpecial()
    ensures !HasSpecial("<bcdefgh")
  {
    var s := "<bcdefgh";
    SpecialIffChecked(s);
    forall i | 0 <= i < |s| ensures s[i] !in CHECKED_SPECIALS {
      assert s[i] == '<' || 'a' <= s[i] <= 'z';
    }
  }

  /** The loop of `forceMeetRequirements`: each listed fixer once, in order,
      each with `numIters` 1 and its own draws. */
  function ApplyFixers(pw: string, fixes: seq<Req>, draws: seq<seq<Draw>>): (r: Result<string, FixError>)
    ensures r.Success? && pw != "" ==> |r.value| == |pw|
    ensures r.Success? && fixes != [] && fixes[|fixes| - 1] in {Uppercase, Lowercase, Number} ==>
      Check(fixes[|fixes| - 1], r.value)
    decreases |fixes|
  {
    if fixes == [] then Success(pw)
    else
      var stream := if draws == [] then [] else draws[0];
      match Fix(fixes[0], pw, 1, stream)
      case Failure(e) => Failure(e)
      case Success(fixed) =>
        assert fixes[1..] != [] ==> fixes[1..][|fixes[1..]| - 1] == fixes[|fixes| - 1];
        ApplyFixers(fixed, fixes[1..], if draws == [] then [] else draws[1..])
  }

  /** One fixer's effect, independent of the draws: the length fixer
      changes nothing, any other fixes one position. */
  ghost predicate OneFix(req: Req, s: string, t: string)
  {
    if req == Length then t == s else exists i: nat :: FixedAt(req, s, t, i)
  }

  /** `ws` are the passwords before and after each of `fixes` in turn. */
  ghost predicate FixChain(fixes: seq<Req>, ws: seq<string>)
  {
    |ws| == |fixes| + 1 && forall i :: 0 <= i < |fixes| ==> OneFix(fixes[i], ws[i], ws[i + 1])
  }

  /** The fixers run in the order listed, each once, each fixing one
      position of what the one before returned. */
  lemma {:induction false} ApplyFixersChain(pw: string, fixes: seq<Req>, draws: seq<seq<Draw>>)
    requires ApplyFixers(pw, fixes, draws).Success?
    ensures exists ws :: FixChain(fixes, ws) && ws[0] == pw && ws[|fixes|] == ApplyFixers(pw, fixes, draws).value
    decreases |fixes|
  {
    var r := ApplyFixers(pw, fixes, draws).value;
    if fixes == [] {
      assert FixChain(fixes, [pw]);
    } else {
      var stream := if draws == [] then [] else draws[0];
      var rest := if draws == [] then [] else draws[1..];
      var fixed := Fix(fixes[0], pw, 1, stream).value;
      assert OneFix(fixes[0], pw, fixed);
      ApplyFixersChain(fixed, fixes[1..], rest);
      var tail :| FixChain(fixes[1..], tail) && tail[0] == fixed && tail[|fixes[1..]|] == r;
      var ws := [pw] + tail;
      forall i | 0 <= i < |fixes| ensures OneFix(fixes[i], ws[i], ws[i + 1]) {
        if i > 0 {
          assert fixes[i] == fixes[1..][i - 1];
          assert ws[i] == tail[i - 1] && ws[i + 1] == tail[i];
        }
      }
      assert FixChain(fixes, ws) && ws[0] == pw && ws[|fixes|] == r;
    }
  }

  /** `Password.forceMeetRequirements`: a password that meets the requirements
      is returned as it is; otherwise the fixers of the requirements it misses
      run in turn, and the result is not checked again. */
  function ForceMeetRequirements(pw: string, reqs: seq<Req>, draws: seq<seq<Draw>>): (r: Result<string, FixError>)
    ensures (forall q :: q in reqs ==> Check(q, pw)) ==> r == Success(pw)
    ensures r.Success? && pw != "" ==> |r.value| == |pw|
  {
    var missing := MissingRequirements(pw, reqs);
    if missing == [] then Success(pw)
    else
      assert missing[0] in missing;
      ApplyFixers(pw, missing, draws)
  }

  /** A successful forcing is one fix per missing requirement, in the order
      the requirements were given, with no check in between. */
  lemma ForceMeetFixesMissing(pw: string, reqs: seq<Req>, draws: seq<seq<Draw>>)
    requires ForceMeetRequirements(pw, reqs, draws).Success?
    ensures var missing := MissingRequirements(pw, reqs);
            exists ws :: FixChain(missing, ws) && ws[0] == pw &&
              ws[|missing|] == ForceMeetRequirements(pw, reqs, draws).value
  {
    var missing := MissingRequirements(pw, reqs);
    if missing == [] {
      var ws := [pw];
      assert FixChain(missing, ws) && ws[0] == pw && ws[|missing|] == pw;
      assert ForceMeetRequirements(pw, reqs, draws) == Success(pw);
    } else {
      ApplyFixersChain(pw, missing, draws);
    }
  }

  /** With one requirement missing, forcing rewrites the position of the
      first eligible draw of the first stream. */
  lemma ForceMeetSingle(pw: string, reqs: seq<Req>, q: Req, draws: seq<seq<Draw>>, k: nat)
    requires MissingRequirements(pw, reqs) == [q] && q != Length
    requires draws != [] && k < |draws[0]|
    requires forall j :: 0 <= j < k ==> Eligible(q, pw, Position(pw, draws[0][j])) == Success(false)
    requires Eligible(q, pw, Position(pw, draws[0][k])) == Success(true)
    ensures (q == Uppercase || q == Lowercase ==> Position(pw, draws[0][k]) < |pw|) &&
      ForceMeetRequirements(pw, reqs, draws) ==
      Success(Rewrite(q, pw, Position(pw, draws[0][k]), draws[0][k].value))
  {
    FixTakesFirstEligible(q, pw, draws[0], k);
    var t := Rewrite(q, pw, Position(pw, draws[0][k]), draws[0][k].value);
    assert Fix(q, pw, 1, draws[0]) == Success(t);
    assert ApplyFixers(t, [], draws[1..]) == Success(t);
    assert [q][0] == q && [q][1..] == [];
    assert ApplyFixers(pw, [q], draws) == Success(t);
  }

  /** Forcing is idempotent: whatever it returned meeting the requirements
      is returned unchanged by a second round, whatever the draws. */
  lemma ForceMeetIdempotent(pw: string, reqs: seq<Req>, d1: seq<seq<Draw>>, d2: seq<seq<Draw>>)
    requires ForceMeetRequirements(pw, reqs, d1).Success?
    requires forall q :: q in reqs ==> Check(q, ForceMeetRequirements(pw, reqs, d1).value)
    ensures var t := ForceMeetRequirements(pw, reqs, d1).value;
            ForceMeetRequirements(t, reqs, d2) == Success(t)
  {
  }

  /** A later fixer can undo an earlier one: forcing `"a"` to have a capital
      and a digit can give `"5"`, which has no capital. */
  lemma LaterFixUndoesEarlier()
    ensures ForceMeetRequirements("a", [Uppercase, Number], [[Draw(0, 0)], [Draw(5, 0)]]) == Success("5")
    ensures !HasUppercase("5")
  {
    NoCapital("a");
    NoCapital("5");
    assert !HasNumber("a") by {
      NumberIffDigit("a");
    }
    assert MissingRequirements("a", [Uppercase, Number]) == [Uppercase, Number] by {
      assert [Uppercase, Number][1..] == [Number];
    }
    assert Fix(Uppercase, "a", 1, [Draw(0, 0)]) == Success("A") by {
      assert Eligible(Uppercase, "a", 0) == Success(true);
      assert Rewrite(Uppercase, "a", 0, 0) == "A";
    }
    assert Fix(Number, "A", 1, [Draw(5, 0)]) == Success("5") by {
      assert Eligible(Number, "A", 0) == Success(true);
      assert Rewrite(Number, "A", 0, 5) == "5";
    }
    assert [Uppercase, Number][1..] == [Number];
    assert ApplyFixers("A", [Number], [[Draw(5, 0)]]) == Success("5");
  }

  /** A one-character string that is not a capital letter fails the
      uppercase checker. */
  lemma NoCapital(s: string)
    requires |s| == 1 && !IsCapital(s[0])
    ensures !HasUppercase(s)
  {
    UppercaseIffCapital(s);
  }

  /** The length fixer never lengthens: a password too short is returned as
      it is. */
  lemma LengthFixerKeepsShort(pw: string, draws: seq<seq<Draw>>)
    requires |pw| < MIN_LEN
    ensures ForceMeetRequirements(pw, [Length], draws) == Success(pw)
    ensures !LongEnough(ForceMeetRequirements(pw, [Length], draws).value)
  {
    assert MissingRequirements(pw, [Length]) == [Length];
    assert [Length][1..] == [];
  }
}

=== FILE: generator.dfy ===
/** `Password.generateRandom`: draw characters from a fixed alphabet, never
    the same character twice in a row, then force the requirements. */
module Generator {
  import opened Wrappers
  import opened Requirements
  import opened Fixers

  /** A non-empty alphabet to draw characters from. */
  type Alphabet = s: string | s != "" witness "a"

  /** `CHARS.lower + CHARS.upper + CHARS.special + CHARS.special`: specials
      are twice as likely, and there are no digits. */
  const POOL: Alphabet := LOWER_CHARS + UPPER_CHARS + SPECIAL_CHARS + SPECIAL_CHARS

  /** The default length of a generated password. */
  const DEFAULT_LENGTH: int := 20

  /** The shape of the raw password: `len` characters (none when `len` is
      not positive) from the pool, no two neighbours equal. */
  predicate Generated(s: string, len: int)
  {
    && |s| == (if len > 0 then len else 0)
    && (forall i :: 0 <= i < |s| ==> s[i] in POOL)
    && (forall i :: 0 < i < |s| ==> s[i] != s[i - 1])
  }

  lemma PoolHasNoDigit(c: char)
    requires c in POOL
    ensures !IsDigit(c)
  {
    assert c in LOWER_CHARS || c in UPPER_CHARS || c in SPECIAL_CHARS;
    if c in SPECIAL_CHARS {
      SpecialHasNoDigit(c);
    } else {
      LetterHasNoDigit(c);
    }
  }

  lemma LetterHasNoDigit(c: char)
    requires c in LOWER_CHARS || c in UPPER_CHARS
    ensures !IsDigit(c)
  {
    if c in LOWER_CHARS {
      var k :| 0 <= k < |LOWER_CHARS| && LOWER_CHARS[k] == c;
    } else {
      var k :| 0 <= k < |UPPER_CHARS| && UPPER_CHARS[k] == c;
    }
  }

  lemma SpecialHasNoDigit(c: char)
    requires c in SPECIAL_CHARS
    ensures !IsDigit(c)
  {
    var k :| 0 <= k < |SPECIAL_CHARS| && SPECIAL_CHARS[k] == c;
  }

  /** A raw password never has a digit: the number requirement is met only
      by the number fixer. */
  lemma GeneratedHasNoDigit(s: string, len: int)
    requires Generated(s, len)
    ensures !HasNumber(s)
  {
    NumberIffDigit(s);
    forall i | 0 <= i < |s| ensures !IsDigit(s[i]) {
      PoolHasNoDigit(s[i]);
    }
  }

  /** The character a draw picks from the alphabet `pool`,
      `chars[rand(chars.length)]`. */
  function PoolChar(pool: Alphabet, d: nat): char
  {
    pool[Rand(d, |pool|)]
  }

  /** `getChar` over the alphabet `pool`: draw indices until the character
      differs from the previous one; the character and the number of draws
      used. Before the first character there is no previous one
      (`password[-1]` is `undefined`). */
  function GetChar(pool: Alphabet, last: Option<char>, draws: seq<nat>): (r: Option<(char, nat)>)
    ensures r.Some? ==> Some(r.value.0) != last && 1 <= r.value.1 <= |draws|
    decreases |draws|
  {
    if draws == [] then None
    else
      var c := PoolChar(pool, draws[0]);
      if Some(c) != last then Some((c, 1))
      else match GetChar(pool, last, draws[1..])
        case None => None
        case Some((c', n)) => Some((c', n + 1))
  }

  /** Every character `getChar` returns comes from the alphabet. */
  lemma {:induction false} GetCharInPool(pool: Alphabet, last: Option<char>, draws: seq<nat>)
    ensures GetChar(pool, last, draws).Some? ==> GetChar(pool, last, draws).value.0 in pool
    decreases |draws|
  {
    if draws != [] && Some(PoolChar(pool, draws[0])) == last {
      GetCharInPool(pool, last, draws[1..]);
    }
  }

  /** `getChar` returns the character of the first draw that differs from
      the previous character, having used the draws up to it. */
  lemma {:induction false} GetCharFirstDifferent(pool: Alphabet, last: Option<char>, draws: seq<nat>, k: nat)
    requires k < |draws|
    requires forall j :: 0 <= j < k ==> Some(PoolChar(pool, draws[j])) == last
    requires Some(PoolChar(pool, draws[k])) != last
    ensures GetChar(pool, last, draws) == Some((PoolChar(pool, draws[k]), k + 1))
    decreases k
  {
    if k > 0 {
      assert Some(PoolChar(pool, draws[0])) == last;
      GetCharFirstDifferent(pool, last, draws[1..], k - 1);
    }
  }

  /** `getChar` finds nothing exactly when every draw repeats the previous
      character. */
  lemma {:induction false} GetCharNoneIff(pool: Alphabet, last: Option<char>, draws: seq<nat>)
    ensures GetChar(pool, last, draws).None? <==>
      forall j :: 0 <= j < |draws| ==> Some(PoolChar(pool, draws[j])) == last
    decreases |draws|
  {
    if draws != [] {
      GetCharNoneIff(pool, last, draws[1..]);
      assert forall j :: 1 <= j < |draws| ==> draws[j] == draws[1..][j - 1];
    }
  }

  /** The last character of a draft, if any. */
  function Last(s: string): Option<char>
  {
    if s == "" then None else Some(s[|s| - 1])
  }

  /** `prefix` followed by the draft, if there is one. */
  function After(prefix: string, rest: Option<string>): Option<string>
  {
    match rest
    case None => None
    case Some(t) => Some(prefix + t)
  }

  lemma AfterAfter(p: string, q: string, x: Option<string>)
    ensures After(p, After(q, x)) == After(p + q, x)
  {
    if x.Some? {
      assert p + (q + x.value) == p + q + x.value;
    }
  }

  /** Reference definition of the generation loop: `n` more characters after
      `last`, each from `getChar` on the draws left; `None` when `getChar`
      runs out. */
  function Draft(pool: Alphabet, n: int, last: Option<char>, draws: seq<nat>): Option<string>
    decreases n
  {
    if n <= 0 then Some("")
    else
      var got := GetChar(pool, last, draws);
      if got.None? then None
      else After([got.value.0], Draft(pool, n - 1, Some(got.value.0), draws[got.value.1..]))
  }

  /** When every draw picks a character other than the one before it, the
      loop takes one draw per character, in order. */
  lemma {:induction false} DraftSucceeds(pool: Alphabet, n: int, last: Option<char>, draws: seq<nat>)
    requires 0 <= n <= |draws|
    requires n > 0 ==> Some(PoolChar(pool, draws[0])) != last
    requires forall j :: 0 < j < n ==> PoolChar(pool, draws[j]) != PoolChar(pool, draws[j - 1])
    ensures Draft(pool, n, last, draws).Some?
    ensures |Draft(pool, n, last, draws).value| == n
    ensures forall j :: 0 <= j < n ==> Draft(pool, n, last, draws).value[j] == PoolChar(pool, draws[j])
    decreases n
  {
    if n > 0 {
      var c := PoolChar(pool, draws[0]);
      GetCharFirstDifferent(pool, last, draws, 0);
      var tail := draws[1..];
      assert forall j :: 0 <= j < |tail| ==> tail[j] == draws[j + 1];
      DraftSucceeds(pool, n - 1, Some(c), tail);
      var rest := Draft(pool, n - 1, Some(c), tail).value;
      assert Draft(pool, n, last, draws) == Some([c] + rest);
      assert forall j :: 0 < j < n ==> ([c] + rest)[j] == rest[j - 1];
    }
  }

  /** Every draft takes its characters from the alphabet. */
  lemma {:induction false} DraftInPool(pool: Alphabet, n: int, last: Option<char>, draws: seq<nat>)
    requires Draft(pool, n, last, draws).Some?
    ensures forall i :: 0 <= i < |Draft(pool, n, last, draws).value| ==> Draft(pool, n, last, draws).value[i] in pool
    decreases n
  {
    if n > 0 {
      var (c, k) := GetChar(pool, last, draws).value;
      GetCharInPool(pool, last, draws);
      DraftInPool(pool, n - 1, Some(c), draws[k..]);
      var rest := Draft(pool, n - 1, Some(c), draws[k..]).value;
      var t := [c] + rest;
      assert Draft(pool, n, last, draws).value == t;
      assert forall i :: 0 < i < |t| ==> t[i] == rest[i - 1];
    }
  }

  /** Every draft has the requested length, never repeats a character
      twice in a row and does not start with the character before it. */
  lemma {:induction false} DraftRuns(pool: Alphabet, n: int, last: Option<char>, draws: seq<nat>)
    requires Draft(pool, n, last, draws).Some?
    ensures |Draft(pool, n, last, draws).value| == (if n > 0 then n else 0)
    ensures forall i :: 0 < i < |Draft(pool, n, last, draws).value| ==>
      Draft(pool, n, last, draws).value[i] != Draft(pool, n, last, draws).value[i - 1]
    ensures Draft(pool, n, last, draws).value != "" ==> Some(Draft(pool, n, last, draws).value[0]) != last
    decreases n
  {
    if n > 0 {
      var (c, k) := GetChar(pool, last, draws).value;
      DraftRuns(pool, n - 1, Some(c), draws[k..]);
      var rest := Draft(pool, n - 1, Some(c), draws[k..]).value;
      var t := [c] + rest;
      assert Draft(pool, n, last, draws).value == t;
      forall i | 0 < i < |t| ensures t[i] != t[i - 1] {
        if i > 1 {
          assert t[i] == rest[i - 1] && t[i - 1] == rest[i - 2];
        }
      }
    }
  }

  /** A completed draft over the password alphabet is a raw password. */
  lemma DraftGenerated(n: int, draws: seq<nat>, s: string)
    requires Draft(POOL, n, None, draws) == Some(s)
    ensures Generated(s, n)
  {
    DraftInPool(POOL, n, None, draws);
    DraftRuns(POOL, n, None, draws);
  }

  /** The loop stops where `getChar` finds nothing. */
  lemma DraftStops(pool: Alphabet, goal: Option<string>, prefix: string, n: int, draws: seq<nat>, used: nat)
    requires n > 0 && used <= |draws|
    requires goal == After(prefix, Draft(pool, n, Last(prefix), draws[used..]))
    requires GetChar(pool, Last(prefix), draws[used..]).None?
    ensures goal == None
  {
  }

  /** One turn of the loop: the draft continues after `prefix` and the
      character `getChar` found. */
  lemma DraftStep(pool: Alphabet, goal: Option<string>, prefix: string, n: int, draws: seq<nat>, used: nat,
                  c: char, k: nat, prefix': string, n': int, used': nat)
    requires n > 0 && used <= |draws|
    requires goal == After(prefix, Draft(pool, n, Last(prefix), draws[used..]))
    requires GetChar(pool, Last(prefix), draws[used..]) == Some((c, k))
    requires prefix' == prefix + [c] && n' == n - 1 && used' == used + k
    ensures used' <= |draws|
    ensures goal == After(prefix', Draft(pool, n', Last(prefix'), draws[used'..]))
  {
    assert draws[used..][k..] == draws[used + k..];
    assert Last(prefix + [c]) == Some(c);
    AfterAfter(prefix, [c], Draft(pool, n - 1, Some(c), draws[used + k..]));
  }

  /** When no characters are left to draw the draft is the prefix, and a
      completed draft over the password alphabet is a raw password. */
  lemma DraftDone(goal: Option<string>, len: int, draws: seq<nat>, prefix: string, n: int, used: nat)
    requires n <= 0 && used <= |draws|
    requires goal == Draft(POOL, len, None, draws)
    requires goal == After(prefix, Draft(POOL, n, Last(prefix), draws[used..]))
    ensures goal == Some(prefix)
    ensures Generated(prefix, len)
  {
    assert prefix + "" == prefix;
    DraftGenerated(len, draws, prefix);
  }

  /** Before the loop the whole draft is still ahead. */
  lemma DraftStart(pool: Alphabet, goal: Option<string>, len: int, draws: seq<nat>, prefix: string, n: int, used: nat)
    requires goal == Draft(pool, len, None, draws)
    requires prefix == "" && n == len && used == 0
    ensures goal == After(prefix, Draft(pool, n, Last(prefix), draws[used..]))
  {
    assert draws[0..] == draws;
    match Draft(pool, len, None, draws)
    case None =>
    case Some(t) => assert "" + t == t;
  }

  /** The loop of `generateRandom`; `None` when the draws run out, which
      stands for `getChar` recursing until the stack overflows. */
  /** Called without a length, `generateRandom` drafts `DEFAULT_LENGTH`
      characters: with neighbouring draws giving different characters, one
      draw per character, making a raw password of that length. */
  lemma DefaultLengthDraft(draws: seq<nat>)
    requires |draws| >= DEFAULT_LENGTH
    requires forall j :: 0 < j < DEFAULT_LENGTH ==> PoolChar(POOL, draws[j]) != PoolChar(POOL, draws[j - 1])
    ensures Draft(POOL, DEFAULT_LENGTH, None, draws).Some?
    ensures |Draft(POOL, DEFAULT_LENGTH, None, draws).value| == 20
    ensures Generated(Draft(POOL, DEFAULT_LENGTH, None, draws).value, DEFAULT_LENGTH)
  {
    DraftSucceeds(POOL, DEFAULT_LENGTH, None, draws);
    DraftGenerated(DEFAULT_LENGTH, draws, Draft(POOL, DEFAULT_LENGTH, None, draws).value);
  }

  method GenerateChars(len: int, draws: seq<nat>) returns (r: Option<string>)
    ensures r == Draft(POOL, len, None, draws)
    ensures r.Some? ==> Generated(r.value, len)
  {
    var password := "";
    var used := 0;
    var i := 0;
    ghost var goal := Draft(POOL, len, None, draws);
    ghost var left := len;
    DraftStart(POOL, goal, len, draws, password, left, used);
    while i < len
      invariant 0 <= used <= |draws|
      invariant left == len - i
      invariant goal == After(password, Draft(POOL, left, Last(password), draws[used..]))
    {
      var got := GetChar(POOL, Last(password), draws[used..]);
      if got.None? {
        DraftStops(POOL, goal, password, left, draws, used);
        return None;
      }
      var (c, n) := got.value;
      ghost var before, usedBefore := password, used;
      password := password + [c];
      used := used + n;
      i := i + 1;
      left := left - 1;
      DraftStep(POOL, goal, before, left + 1, draws, usedBefore, c, n, password, left, used);
    }
    DraftDone(goal, len, draws, password, left, used);
    return Some(password);
  }

  /** `Password.generateRandom(len, requirements)`: the raw password forced
      to meet the requirements. */
  method GenerateRandom(len: int, reqs: seq<Req>, charDraws: seq<nat>, fixDraws: seq<seq<Draw>>)
    returns (r: Result<string, FixError>)
    ensures Draft(POOL, len, None, charDraws).None? ==> r == Failure(OutOfDraws)
    ensures Draft(POOL, len, None, charDraws).Some? ==>
      r == ForceMeetRequirements(Draft(POOL, len, None, charDraws).value, reqs, fixDraws)
    ensures r.Success? && len > 0 ==> |r.value| == len
    ensures r.Success? ==> exists raw :: Generated(raw, len) && ForceMeetRequirements(raw, reqs, fixDraws) == r
    ensures r.Success? && reqs == [] ==> Generated(r.value, len)
  {
    var raw := GenerateChars(len, charDraws);
    if raw.None? {
      return Failure(OutOfDraws);
    }
    r := ForceMeetRequirements(raw.value, reqs, fixDraws);
    assert Generated(raw.value, len) && ForceMeetRequirements(raw.value, reqs, fixDraws) == r;
  }

  /** Generating an empty password with the default requirements retries
      without end, a `RangeError` in JavaScript: the special fixer writes one
      special character, and the uppercase fixer then finds no small letter
      to raise. */
  lemma EmptyDefaultRunsOut(draws: seq<seq<Draw>>)
    ensures ForceMeetRequirements("", DEFAULT_REQUIREMENTS, draws) == Failure(OutOfDraws)
  {
    EmptyMissesAll();
    var stream := if draws == [] then [] else draws[0];
    var rest := if draws == [] then [] else draws[1..];
    var tail := DEFAULT_REQUIREMENTS[1..];
    assert ApplyFixers("", DEFAULT_REQUIREMENTS, draws) ==
      match Fix(Special, "", 1, stream)
      case Failure(e) => Failure(e)
      case Success(t) => ApplyFixers(t, tail, rest);
    match Fix(Special, "", 1, stream)
    case Failure(_) =>
    case Success(t) =>
      var i :| FixedAt(Special, "", t, i);
      SpecialThenUppercaseFails(t, rest);
  }

  lemma EmptyMissesAll()
    ensures MissingRequirements("", DEFAULT_REQUIREMENTS) == DEFAULT_REQUIREMENTS
  {
    assert !HasSpecial("") && !HasUppercase("") && !HasLowercase("") && !HasNumber("");
    forall q: Req ensures !Check(q, "") {
    }
    AllMissing("", DEFAULT_REQUIREMENTS);
  }

  /** After the special fixer has turned the empty password into one special
      character, the remaining default fixers cannot finish. */
  lemma SpecialThenUppercaseFails(t: string, draws: seq<seq<Draw>>)
    requires |t| == 1 && t[0] in WRITTEN_SPECIALS
    ensures ApplyFixers(t, DEFAULT_REQUIREMENTS[1..], draws) == Failure(OutOfDraws)
  {
    var stream := if draws == [] then [] else draws[0];
    assert DEFAULT_REQUIREMENTS[1..][0] == Uppercase;
    assert Stuck(Uppercase, t) by {
      var k :| 0 <= k < |WRITTEN_SPECIALS| && WRITTEN_SPECIALS[k] == t[0];
      assert !IsSmall(t[0]);
    }
    StuckRunsOut(Uppercase, t, 1, stream);
  }
}

=== FILE: keypath.dfy ===
/** Path resolution of the secret store (`Store.getKeyPath`): a slash path
    such as `email/work` becomes the key segments `["email/", "work"]` that
    address the JSON tree. Every segment but the last carries the
    directory suffix `/`; the last is the bare name. */
module KeyPath {
  import opened Text

  /** A directory key of the tree: it ends with `/`. */
  predicate IsDirKey(k: string)
  {
    |k| > 0 && k[|k| - 1] == '/'
  }

  /** A path token: non-empty and slash-free. */
  predicate IsName(t: string)
  {
    t != "" && '/' !in t
  }

  /** The name a key stands for: the key without its directory suffix. */
  function Name(k: string): string
  {
    if IsDirKey(k) then k[..|k| - 1] else k
  }

  /** The shape of a key path: directory keys followed by one bare name. */
  predicate ValidKeyPath(p: seq<string>)
  {
    forall i :: 0 <= i < |p| ==>
      if i < |p| - 1 then IsDirKey(p[i]) && IsName(Name(p[i])) else IsName(p[i])
  }

  /** `pieces.filter(k => !!k)`: drops the empty pieces, keeping the order. */
  function NonEmpty(ts: seq<string>): (r: seq<string>)
    ensures |r| <= |ts|
    ensures forall i :: 0 <= i < |r| ==> r[i] != "" && r[i] in ts
  {
    if ts == [] then []
    else (if ts[0] == "" then [] else [ts[0]]) + NonEmpty(ts[1..])
  }

  /** The names a path string mentions, in order. */
  function Tokens(path: string): (r: seq<string>)
    ensures forall i :: 0 <= i < |r| ==> IsName(r[i])
  {
    var pieces := Split(path, '/');
    var r := NonEmpty(pieces);
    assert forall i :: 0 <= i < |r| ==> r[i] in pieces;
    r
  }

  /** `names.map(k => k + "/")`. */
  function AppendSlash(ts: seq<string>): seq<string>
  {
    seq(|ts|, i requires 0 <= i < |ts| => ts[i] + "/")
  }

  /** `s.replace(c, "")` with a one-character pattern: drops the first `c`. */
  function RemoveFirst(s: string, c: char): string
  {
    if |s| == 0 then s
    else if s[0] == c then s[1..]
    else [s[0]] + RemoveFirst(s[1..], c)
  }

  /** `Store.getKeyPath`: split on `/`, drop empty tokens, mark every token
      as a directory key, then strip the first `/` of the last one. An empty
      (or undefined) path gives the root, `[]`. */
  function GetKeyPath(path: string): (r: seq<string>)
    ensures path == "" ==> r == []
    ensures ValidKeyPath(r)
    ensures |r| == |Tokens(path)|
    ensures forall i :: 0 <= i < |r| ==> Name(r[i]) == Tokens(path)[i]
  {
    var marked := if path != "" then AppendSlash(NonEmpty(Split(path, '/'))) else [];
    var ts := Tokens(path);
    assert path == "" ==> ts == [];
    assert |marked| == |ts|;
    assert forall i :: 0 <= i < |marked| ==> marked[i] == ts[i] + "/";
    assert forall i :: 0 <= i < |marked| ==> Name(marked[i]) == ts[i];
    if |marked| > 0 then
      var last := |marked| - 1;
      RemoveFirstAppended(ts[last], '/');
      marked[last := RemoveFirst(marked[last], '/')]
    else marked
  }

  lemma {:induction false} RemoveFirstAppended(t: string, c: char)
    requires c !in t
    ensures RemoveFirst(t + [c], c) == t
    decreases |t|
  {
    if |t| > 0 {
      assert (t + [c])[1..] == t[1..] + [c];
      RemoveFirstAppended(t[1..], c);
    }
  }

  /** A key path is determined by its shape and its names. */
  lemma SameNamesSameKeyPath(p: seq<string>, q: seq<string>)
    requires ValidKeyPath(p) && ValidKeyPath(q)
    requires |p| == |q|
    requires forall i :: 0 <= i < |p| ==> Name(p[i]) == Name(q[i])
    ensures p == q
  {
    forall i | 0 <= i < |p|
      ensures p[i] == q[i]
    {
      if i < |p| - 1 {
        assert p[i] == Name(p[i]) + "/";
        assert q[i] == Name(q[i]) + "/";
      }
    }
  }

  /** Two paths with the same tokens resolve to the same key path. */
  lemma SameTokensSameKeyPath(a: string, b: string)
    requires Tokens(a) == Tokens(b)
    ensures GetKeyPath(a) == GetKeyPath(b)
  {
    SameNamesSameKeyPath(GetKeyPath(a), GetKeyPath(b));
  }

  lemma {:induction false} NonEmptyAppend(a: seq<string>, b: seq<string>)
    ensures NonEmpty(a + b) == NonEmpty(a) + NonEmpty(b)
    decreases |a|
  {
    if a != [] {
      assert (a + b)[0] == a[0];
      assert (a + b)[1..] == a[1..] + b;
      NonEmptyAppend(a[1..], b);
      var h := if a[0] == "" then [] else [a[0]];
      assert NonEmpty(a + b) == h + (NonEmpty(a[1..]) + NonEmpty(b));
      assert NonEmpty(a) == h + NonEmpty(a[1..]);
      assert h + (NonEmpty(a[1..]) + NonEmpty(b)) == (h + NonEmpty(a[1..])) + NonEmpty(b);
    } else {
      assert a + b == b;
    }
  }

  lemma {:induction false} NonEmptyKeepsNames(ts: seq<string>)
    requires forall i :: 0 <= i < |ts| ==> ts[i] != ""
    ensures NonEmpty(ts) == ts
    decreases |ts|
  {
    if ts != [] {
      NonEmptyKeepsNames(ts[1..]);
    }
  }

  /** The tokens on either side of a separator are the tokens of both sides. */
  lemma TokensAt(a: string, b: string)
    ensures Tokens(a + "/" + b) == Tokens(a) + Tokens(b)
  {
    SplitAt(a, b, '/');
    NonEmptyAppend(Split(a, '/'), Split(b, '/'));
  }

  /** A trailing slash does not change the key path: `"a/b/"` and `"a/b"`
      both give `["a/", "b"]`, so the last segment never becomes a directory. */
  lemma TrailingSlashIgnored(s: string)
    ensures GetKeyPath(s + "/") == GetKeyPath(s)
  {
    TokensAt(s, "");
    assert s + "/" + "" == s + "/";
    SameTokensSameKeyPath(s + "/", s);
  }

  /** A leading slash adds only an empty token. */
  lemma TokensLeadingSlash(s: string)
    ensures Tokens("/" + s) == Tokens(s)
  {
    TokensAt("", s);
    assert "" + "/" + s == "/" + s;
    assert Split("", '/') == [""];
  }

  /** A leading slash does not change the key path. */
  lemma LeadingSlashIgnored(s: string)
    ensures GetKeyPath("/" + s) == GetKeyPath(s)
  {
    TokensLeadingSlash(s);
    SameTokensSameKeyPath("/" + s, s);
  }

  /** Doubled slashes collapse: `"a//b"` resolves like `"a/b"`. */
  lemma RepeatedSlashIgnored(a: string, b: string)
    ensures GetKeyPath(a + "//" + b) == GetKeyPath(a + "/" + b)
  {
    assert Tokens(a + "//" + b) == Tokens(a + "/" + b) by {
      TokensAt(a, "/" + b);
      assert a + "//" + b == a + "/" + ("/" + b);
      TokensLeadingSlash(b);
      TokensAt(a, b);
    }
    SameTokensSameKeyPath(a + "//" + b, a + "/" + b);
  }

  /** The path string a key path spells: its keys concatenated. */
  function Concat(p: seq<string>): string
  {
    if p == [] then "" else p[0] + Concat(p[1..])
  }

  function Names(p: seq<string>): seq<string>
  {
    seq(|p|, i requires 0 <= i < |p| => Name(p[i]))
  }

  lemma {:induction false} ConcatIsJoin(p: seq<string>)
    requires ValidKeyPath(p) && |p| >= 1
    ensures Concat(p) == Join(Names(p), '/')
    decreases |p|
  {
    if |p| == 1 {
      assert Concat(p) == p[0] + Concat([]);
    } else {
      var tail := p[1..];
      assert ValidKeyPath(tail) by {
        forall i | 0 <= i < |tail|
          ensures if i < |tail| - 1 then IsDirKey(tail[i]) && IsName(Name(tail[i])) else IsName(tail[i])
        {
          assert tail[i] == p[i + 1];
        }
      }
      ConcatIsJoin(tail);
      assert Names(p)[1..] == Names(tail);
      assert p[0] == Name(p[0]) + "/";
      JoinCons(Name(p[0]), Names(tail), '/');
      assert Names(p) == [Name(p[0])] + Names(tail);
    }
  }

  /** Spelling a key path and resolving the spelling gives the key path back. */
  lemma KeyPathRoundTrip(p: seq<string>)
    requires ValidKeyPath(p)
    ensures GetKeyPath(Concat(p)) == p
  {
    if p != [] {
      var names := Names(p);
      assert forall i :: 0 <= i < |names| ==> IsName(names[i]);
      ConcatIsJoin(p);
      SplitJoin(names, '/');
      NonEmptyKeepsNames(names);
      assert Tokens(Concat(p)) == names;
      SameNamesSameKeyPath(GetKeyPath(Concat(p)), p);
    }
  }

  /** Resolution is a normalisation: resolving the spelling of a resolved
      path changes nothing. */
  lemma KeyPathIdempotent(path: string)
    ensures GetKeyPath(Concat(GetKeyPath(path))) == GetKeyPath(path)
  {
    KeyPathRoundTrip(GetKeyPath(path));
  }
}

=== FILE: requirements.dfy ===
/** Password requirements of `password.mjs`: the private `#reqCheckers`,
    `missingRequirements` and `isMeetsRequirements`. Text is ASCII: case
    mapping is the ASCII one. */
module Requirements {
  import opened Text

  datatype Req = Special | Uppercase | Lowercase | Number | Length

  /** `CHARS.special`, the alphabet generation and the special fixer use. */
  const SPECIAL_CHARS: string := "!@#$%^&*()<>-+_={}[]?,.:;"
  const UPPER_CHARS: string := "ABCDEFGHIJKLMNOPQRSTUVWXYZ"
  const LOWER_CHARS: string := "abcdefghijklmnopqrstuvwxyz"
  const NUMBER_CHARS: string := "0123456789"

  /** The characters the `special` checker looks for: `CHARS.special`
      without `<>-+_=;`. */
  const CHECKED_SPECIALS: string := "!@#$%^&*(){}[]?,.:"

  /** `#minLen`. */
  const MIN_LEN: nat := 8

  /** `#requirements`, the default list, in order. */
  const DEFAULT_REQUIREMENTS: seq<Req> := [Special, Uppercase, Lowercase, Number, Length]

  /** `uppercase`: lower-casing changes the string. */
  predicate HasUppercase(s: string)
  {
    Lower(s) != s
  }

  /** `lowercase`: upper-casing changes the string. */
  predicate HasLowercase(s: string)
  {
    Upper(s) != s
  }

  /** `special`: some checked special character occurs in the string. */
  predicate HasSpecial(s: string)
  {
    exists i :: 0 <= i < |CHECKED_SPECIALS| && CHECKED_SPECIALS[i] in s
  }

  /** `number`: some digit occurs in the string. */
  predicate HasNumber(s: string)
  {
    exists i :: 0 <= i < |NUMBER_CHARS| && NUMBER_CHARS[i] in s
  }

  /** `length`: at least `#minLen` characters. */
  predicate LongEnough(s: string)
  {
    |s| >= MIN_LEN
  }

  /** `#reqCheckers[req](s)`. */
  predicate Check(req: Req, s: string)
  {
    match req
    case Special => HasSpecial(s)
    case Uppercase => HasUppercase(s)
    case Lowercase => HasLowercase(s)
    case Number => HasNumber(s)
    case Length => LongEnough(s)
  }

  predicate IsCapital(c: char)
  {
    'A' <= c <= 'Z'
  }

  predicate IsSmall(c: char)
  {
    'a' <= c <= 'z'
  }

  predicate IsDigit(c: char)
  {
    '0' <= c <= '9'
  }

  /** The `uppercase` checker holds exactly when the string has a letter A–Z. */
  lemma UppercaseIffCapital(s: string)
    ensures HasUppercase(s) <==> exists i :: 0 <= i < |s| && IsCapital(s[i])
  {
    if HasUppercase(s) {
      var i :| 0 <= i < |s| && Lower(s)[i] != s[i];
      assert IsCapital(s[i]);
    }
    if i :| 0 <= i < |s| && IsCapital(s[i]) {
      assert Lower(s)[i] != s[i];
    }
  }

  /** The `lowercase` checker holds exactly when the string has a letter a–z. */
  lemma LowercaseIffSmall(s: string)
    ensures HasLowercase(s) <==> exists i :: 0 <= i < |s| && IsSmall(s[i])
  {
    if HasLowercase(s) {
      var i :| 0 <= i < |s| && Upper(s)[i] != s[i];
      assert IsSmall(s[i]);
    }
    if i :| 0 <= i < |s| && IsSmall(s[i]) {
      assert Upper(s)[i] != s[i];
    }
  }

  /** The `number` checker holds exactly when the string has a digit 0–9. */
  lemma NumberIffDigit(s: string)
    ensures HasNumber(s) <==> exists i :: 0 <= i < |s| && IsDigit(s[i])
  {
    if HasNumber(s) {
      var k :| 0 <= k < |NUMBER_CHARS| && NUMBER_CHARS[k] in s;
      var i :| 0 <= i < |s| && s[i] == NUMBER_CHARS[k];
      assert IsDigit(s[i]);
    }
    if i :| 0 <= i < |s| && IsDigit(s[i]) {
      var k := s[i] as int - '0' as int;
      assert NUMBER_CHARS[k] == s[i];
    }
  }

  /** The `special` checker holds exactly when some character of the string
      is one of the checked specials. */
  lemma SpecialIffChecked(s: string)
    ensures HasSpecial(s) <==> exists i :: 0 <= i < |s| && s[i] in CHECKED_SPECIALS
  {
    if HasSpecial(s) {
      var k :| 0 <= k < |CHECKED_SPECIALS| && CHECKED_SPECIALS[k] in s;
      var i :| 0 <= i < |s| && s[i] == CHECKED_SPECIALS[k];
    }
    if i :| 0 <= i < |s| && s[i] in CHECKED_SPECIALS {
      var k :| 0 <= k < |CHECKED_SPECIALS| && CHECKED_SPECIALS[k] == s[i];
    }
  }

  /** `Password.missingRequirements`: the requirements whose checker fails,
      in the order given. */
  function MissingRequirements(pw: string, reqs: seq<Req>): (r: seq<Req>)
    ensures |r| <= |reqs|
    ensures forall q :: q in r <==> q in reqs && !Check(q, pw)
    decreases |reqs|
  {
    if reqs == [] then []
    else (if Check(reqs[0], pw) then [] else [reqs[0]]) + MissingRequirements(pw, reqs[1..])
  }

  /** The order of the input is kept: missing requirements of a
      concatenation are the concatenation of the missing requirements. */
  lemma {:induction false} MissingAppend(pw: string, a: seq<Req>, b: seq<Req>)
    ensures MissingRequirements(pw, a + b) == MissingRequirements(pw, a) + MissingRequirements(pw, b)
    decreases |a|
  {
    if a == [] {
      assert a + b == b;
    } else {
      assert (a + b)[0] == a[0];
      assert (a + b)[1..] == a[1..] + b;
      MissingAppend(pw, a[1..], b);
    }
  }

  /** When every checker holds nothing is missing. */
  lemma NoneMissing(pw: string, reqs: seq<Req>)
    requires forall j :: 0 <= j < |reqs| ==> Check(reqs[j], pw)
    ensures MissingRequirements(pw, reqs) == []
  {
    var r := MissingRequirements(pw, reqs);
    assert forall q :: q !in r;
  }

  /** When every checker fails every requirement is missing, in order. */
  lemma {:induction false} AllMissing(pw: string, reqs: seq<Req>)
    requires forall q :: q in reqs ==> !Check(q, pw)
    ensures MissingRequirements(pw, reqs) == reqs
    decreases |reqs|
  {
    if reqs != [] {
      assert reqs[0] in reqs;
      assert forall q :: q in reqs[1..] ==> q in reqs;
      AllMissing(pw, reqs[1..]);
    }
  }

  /** `Password.isMeetsRequirements`: stops at the first failing checker. */
  method IsMeetsRequirements(pw: string, reqs: seq<Req>) returns (ok: bool)
    ensures ok <==> forall q :: q in reqs ==> Check(q, pw)
    ensures ok <==> MissingRequirements(pw, reqs) == []
  {
    var i := 0;
    while i < |reqs|
      invariant 0 <= i <= |reqs|
      invariant forall j :: 0 <= j < i ==> Check(reqs[j], pw)
    {
      if !Check(reqs[i], pw) {
        assert reqs[i] in MissingRequirements(pw, reqs);
        return false;
      }
      i := i + 1;
    }
    NoneMissing(pw, reqs);
    return true;
  }
}

=== FILE: secret_tree.dfy ===
/** The secret tree of a key store: the JSON object under `passwords`.
    Directory keys end with `/`; a secret is an object holding a `password`
    field; field values are ciphertext strings. The operations follow
    `Store.walkPath`, `Store#passwordExists`, the insertion loop of
    `Store#save` and the name listing of `Store#list` / `Store#get`.

    JavaScript's `in` operator throws a TypeError when its right operand is a
    string, so every walk that must look inside a string value reports that
    explicitly. */
module SecretTree {
  import opened Wrappers
  import opened Text
  import opened KeyPath

  /** A JSON value of the tree: an object or a string. */
  datatype Node = Obj(entries: map<string, Node>) | Str(text: string)

  datatype StoreError =
    | TypeError       // `in` applied to a string or to `undefined`
    | ReservedName    // a path whose last segment is `password`
    | AlreadyExists   // `save` onto a path that already exists
    | NotFound        // `list` of a path that does not resolve

  /** JavaScript truthiness of a tree value (`!!value`). */
  predicate Truthy(n: Node)
  {
    n.Obj? || n.text != ""
  }

  /** Reference lookup: follow the keys exactly, failing on a missing key or
      on a string that still has keys to follow. */
  function Lookup(n: Node, keys: seq<string>): Option<Node>
    decreases keys
  {
    if keys == [] then Some(n)
    else match n
      case Str(_) => None
      case Obj(m) => if keys[0] in m then Lookup(m[keys[0]], keys[1..]) else None
  }

  /** Following the keys exactly reaches a string while keys remain. */
  predicate HitsString(n: Node, keys: seq<string>)
    decreases keys
  {
    keys != [] &&
    match n
    case Str(_) => true
    case Obj(m) => keys[0] in m && HitsString(m[keys[0]], keys[1..])
  }

  /** A walk that hits a string finds nothing by exact lookup. */
  lemma {:induction false} HitsStringNotFound(n: Node, keys: seq<string>)
    requires HitsString(n, keys)
    ensures Lookup(n, keys).None?
    decreases keys
  {
    if n.Obj? {
      HitsStringNotFound(n.entries[keys[0]], keys[1..]);
    }
  }

  /** The outcome of `Store.walkPath`: a value, `undefined`, or a thrown TypeError. */
  datatype Walked = Found(node: Node) | Undefined | Thrown

  /** `Store.walkPath`: at each step take the exact key if present, else the
      directory key `key + "/"`, else stop with `undefined`. So an exact
      path always wins, and a secret `a` shadows a directory `a/`. */
  function WalkPath(n: Node, keys: seq<string>): (r: Walked)
    ensures Lookup(n, keys).Some? ==> r == Found(Lookup(n, keys).value)
    ensures r == Undefined ==> Lookup(n, keys).None?
    ensures keys == [] ==> r == Found(n)
    decreases keys
  {
    if keys == [] then Found(n)
    else match n
      case Str(_) => Thrown
      case Obj(m) =>
        if keys[0] in m then WalkPath(m[keys[0]], keys[1..])
        else if keys[0] + "/" in m then WalkPath(m[keys[0] + "/"], keys[1..])
        else Undefined
  }

  /** Walking a path in two parts: once the first part is found, the rest
      is walked from what it found. */
  lemma {:induction false} WalkPathAppend(n: Node, a: seq<string>, b: seq<string>)
    requires WalkPath(n, a).Found?
    ensures WalkPath(n, a + b) == WalkPath(WalkPath(n, a).node, b)
    decreases a
  {
    if a == [] {
      assert a + b == b;
    } else {
      assert (a + b)[0] == a[0];
      assert (a + b)[1..] == a[1..] + b;
      var m := n.entries;
      if a[0] in m {
        WalkPathAppend(m[a[0]], a[1..], b);
      } else {
        WalkPathAppend(m[a[0] + "/"], a[1..], b);
      }
    }
  }

  /** The directory fallback: below an existing object, a bare name that is
      not a key but whose directory key `name + "/"` is, walks into that
      directory. So `ls email` reaches `email/`. */
  lemma WalkPathFallback(n: Node, pre: seq<string>, k: string)
    requires Lookup(n, pre).Some? && Lookup(n, pre).value.Obj?
    requires k !in Lookup(n, pre).value.entries
    requires k + "/" in Lookup(n, pre).value.entries
    ensures WalkPath(n, pre + [k]) == Found(Lookup(n, pre).value.entries[k + "/"])
  {
    WalkPathAppend(n, pre, [k]);
  }

  /** Below an existing object, a name that is neither a key nor a
      directory key ends the walk with `undefined`. */
  lemma WalkPathMissing(n: Node, pre: seq<string>, k: string)
    requires Lookup(n, pre).Some? && Lookup(n, pre).value.Obj?
    requires k !in Lookup(n, pre).value.entries
    requires k + "/" !in Lookup(n, pre).value.entries
    ensures WalkPath(n, pre + [k]) == Undefined
  {
    WalkPathAppend(n, pre, [k]);
  }

  /** The walk throws exactly when some proper prefix of the keys walks to
      a string: `p in "text"` with keys still to follow. */
  lemma {:induction false} WalkPathThrownIff(n: Node, keys: seq<string>)
    ensures WalkPath(n, keys) == Thrown <==>
      exists i :: 0 <= i < |keys| && WalkPath(n, keys[..i]).Found? && WalkPath(n, keys[..i]).node.Str?
    decreases keys
  {
    if keys == [] {
    } else if n.Str? {
      assert keys[..0] == [];
    } else {
      var m := n.entries;
      assert WalkPath(n, keys[..0]) == Found(n);
      if keys[0] in m || keys[0] + "/" in m {
        var k := if keys[0] in m then keys[0] else keys[0] + "/";
        var rest := keys[1..];
        WalkPathThrownIff(m[k], rest);
        forall i | 1 <= i <= |keys|
          ensures WalkPath(n, keys[..i]) == WalkPath(m[k], rest[..i - 1])
        {
          assert keys[..i][0] == keys[0];
          assert keys[..i][1..] == rest[..i - 1];
        }
        if WalkPath(n, keys) == Thrown {
          var j :| 0 <= j < |rest| && WalkPath(m[k], rest[..j]).Found? && WalkPath(m[k], rest[..j]).node.Str?;
          assert WalkPath(n, keys[..j + 1]) == WalkPath(m[k], rest[..j]);
        }
      } else {
        forall i | 1 <= i < |keys| ensures WalkPath(n, keys[..i]) == Undefined {
          assert keys[..i][0] == keys[0];
        }
      }
    }
  }

  /** `route` spells `keys` with some keys taken as their directory key. */
  predicate Spells(keys: seq<string>, route: seq<string>)
  {
    |route| == |keys| && forall i :: 0 <= i < |keys| ==> route[i] == keys[i] || route[i] == keys[i] + "/"
  }

  /** Whatever the walk finds is found by exact lookup along a route that
      takes each key either as it is or as its directory key. */
  lemma {:induction false} WalkPathFollowsRoute(n: Node, keys: seq<string>)
    requires WalkPath(n, keys).Found?
    ensures exists route :: Spells(keys, route) && Lookup(n, route) == Some(WalkPath(n, keys).node)
    decreases keys
  {
    if keys == [] {
      assert Spells(keys, []) && Lookup(n, []) == Some(n);
    } else {
      var m := n.entries;
      var k := if keys[0] in m then keys[0] else keys[0] + "/";
      WalkPathFollowsRoute(m[k], keys[1..]);
      var tail :| Spells(keys[1..], tail) && Lookup(m[k], tail) == Some(WalkPath(m[k], keys[1..]).node);
      var route := [k] + tail;
      assert route[1..] == tail;
      forall i | 0 <= i < |keys| ensures route[i] == keys[i] || route[i] == keys[i] + "/" {
        if i > 0 {
          assert route[i] == tail[i - 1];
        }
      }
      assert Spells(keys, route) && Lookup(n, route) == Some(WalkPath(n, keys).node);
    }
  }

  /** `Store#passwordExists`: follows exact keys only; false at the first
      missing key; otherwise the truthiness of the value reached. */
  function PasswordExists(n: Node, keys: seq<string>): (r: Result<bool, StoreError>)
    ensures r.Failure? <==> HitsString(n, keys)
    ensures r.Failure? ==> r.error == TypeError
    ensures r.Success? ==> (r.value <==> Lookup(n, keys).Some? && Truthy(Lookup(n, keys).value))
    ensures keys == [] ==> r == Success(Truthy(n))
    decreases keys
  {
    if keys == [] then Success(Truthy(n))
    else match n
      case Str(_) => Failure(TypeError)
      case Obj(m) => if keys[0] in m then PasswordExists(m[keys[0]], keys[1..]) else Success(false)
  }

  /** The properties of the String wrapper of `s` that cannot be set:
      `length` and the index of each character. */
  predicate ReadOnlyOnString(s: string, k: string)
  {
    k == "length" || exists i :: 0 <= i < |s| && k == Decimal(i)
  }

  /** `Object.assign(s, source)` on a string target works on a String
      wrapper, and throws a TypeError when `source` sets one of its
      read-only properties. */
  predicate AssignToStringThrows(s: string, source: map<string, Node>)
  {
    exists k :: k in source && ReadOnlyOnString(s, k)
  }

  /** The keys lead exactly to a string onto which assigning `source` throws. */
  predicate StringTargetThrows(n: Node, keys: seq<string>, source: map<string, Node>)
  {
    Lookup(n, keys).Some? && Lookup(n, keys).value.Str? &&
    AssignToStringThrows(Lookup(n, keys).value.text, source)
  }

  /** The insertion loop of `Store#save`: walk the keys, creating `{}` for
      every missing key and reusing existing values, then `Object.assign`
      the fields of `source` onto the value reached. `Object.assign` onto a
      string only changes a temporary wrapper object, so a string target is
      left as it is unless a read-only property of the wrapper is set, which
      throws; a string met with keys left over throws too. */
  function Insert(n: Node, keys: seq<string>, source: map<string, Node>): (r: Result<Node, StoreError>)
    ensures r.Success? <==> !HitsString(n, keys) && !StringTargetThrows(n, keys, source)
    ensures r.Failure? ==> r.error == TypeError
    ensures Lookup(n, keys).Some? && Lookup(n, keys).value.Str? ==>
      (r == Success(n) <==> !AssignToStringThrows(Lookup(n, keys).value.text, source))
    decreases keys
  {
    if keys == [] then
      match n
      case Obj(m) => Success(Obj(m + source))
      case Str(s) => if AssignToStringThrows(s, source) then Failure(TypeError) else Success(n)
    else match n
      case Str(_) => Failure(TypeError)
      case Obj(m) =>
        var child := if keys[0] in m then m[keys[0]] else Obj(map[]);
        assert keys[0] !in m ==> Lookup(child, keys[1..]).Some? ==> keys[1..] == [];
        var updated :- Insert(child, keys[1..], source);
        assert keys[0] in m && updated == m[keys[0]] ==> m[keys[0] := updated] == m;
        Success(Obj(m[keys[0] := updated]))
  }

  /** The entries of the object a lookup reaches, or none. */
  function Base(n: Node, keys: seq<string>): map<string, Node>
  {
    match Lookup(n, keys)
    case Some(Obj(m)) => m
    case _ => map[]
  }

  /** After a successful insertion the keys lead to an object holding the
      entries that were there before (if any) merged with `source`. */
  lemma {:induction false} InsertFinds(n: Node, keys: seq<string>, source: map<string, Node>)
    requires Insert(n, keys, source).Success?
    requires !(Lookup(n, keys).Some? && Lookup(n, keys).value.Str?)
    ensures Lookup(Insert(n, keys, source).value, keys) == Some(Obj(Base(n, keys) + source))
    decreases keys
  {
    if keys != [] {
      var m := n.entries;
      var child := if keys[0] in m then m[keys[0]] else Obj(map[]);
      if keys[0] !in m {
        assert Lookup(child, keys[1..]).Some? ==> keys[1..] == [];
      }
      InsertFinds(child, keys[1..], source);
      assert Base(child, keys[1..]) == Base(n, keys);
    }
  }

  /** Inserting two keys below an object that lacks the first adds that
      key, holding an object with the second key, holding the source. */
  lemma InsertNewDirectory(n: Node, dir: string, name: string, source: map<string, Node>)
    requires n.Obj? && dir !in n.entries
    ensures Insert(n, [dir, name], source) == Success(Obj(n.entries[dir := Obj(map[name := Obj(source)])]))
  {
    assert Insert(Obj(map[]), [], source) == Success(Obj(source)) by {
      assert map[] + source == source;
    }
    assert Insert(Obj(map[]), [name], source) == Success(Obj(map[name := Obj(source)])) by {
      assert [name][1..] == [];
    }
    assert [dir, name][1..] == [name];
  }

  /** Inserting along a path that did not exist creates exactly the merged
      object there, and every lookup finds it. */
  lemma InsertNewFound(n: Node, keys: seq<string>, source: map<string, Node>)
    requires Insert(n, keys, source).Success?
    requires Lookup(n, keys).None?
    ensures var t := Insert(n, keys, source).value;
            && Lookup(t, keys) == Some(Obj(source))
            && WalkPath(t, keys) == Found(Obj(source))
            && PasswordExists(t, keys) == Success(true)
  {
    var t := Insert(n, keys, source).value;
    InsertFinds(n, keys, source);
    assert Base(n, keys) + source == source;
    if HitsString(t, keys) {
      HitsStringNotFound(t, keys);
    }
  }

  /** Nothing else changes: every path that is neither a prefix of the
      inserted keys nor leads through a field of `source` looks up exactly
      what it looked up before. */
  lemma {:induction false} InsertFrame(n: Node, keys: seq<string>, source: map<string, Node>, q: seq<string>)
    requires Insert(n, keys, source).Success?
    requires !(q <= keys)
    requires keys < q ==> q[|keys|] !in source
    ensures Lookup(Insert(n, keys, source).value, q) == Lookup(n, q)
    decreases keys
  {
    if keys == [] {
      assert q[0] !in source;
    } else {
      var m := n.entries;
      if q[0] == keys[0] {
        var child := if keys[0] in m then m[keys[0]] else Obj(map[]);
        assert !(q[1..] <= keys[1..]);
        InsertFrame(child, keys[1..], source, q[1..]);
        if keys[0] !in m {
          assert q[1..] != [];
        }
      }
    }
  }

  /** A tree in which every directory key holds an object. */
  predicate WellShaped(n: Node)
  {
    match n
    case Str(_) => true
    case Obj(m) => forall k :: k in m ==> (IsDirKey(k) ==> m[k].Obj?) && WellShaped(m[k])
  }

  /** Insertion keeps a tree well shaped when what it merges in is. */
  lemma {:induction false} InsertWellShaped(n: Node, keys: seq<string>, source: map<string, Node>)
    requires WellShaped(n) && WellShaped(Obj(source))
    requires Insert(n, keys, source).Success?
    ensures WellShaped(Insert(n, keys, source).value)
    decreases keys
  {
    if keys != [] {
      var m := n.entries;
      var child := if keys[0] in m then m[keys[0]] else Obj(map[]);
      InsertWellShaped(child, keys[1..], source);
      var u := Insert(child, keys[1..], source).value;
      assert child.Obj? ==> u.Obj?;
      assert IsDirKey(keys[0]) && keys[0] in m ==> child.Obj?;
    }
  }

  /** The names `printPasswordNames` prints below a value, as key paths
      relative to it: every key of an object, and below every directory key
      (one ending with `/`) the names of its value. A `for … in` loop over a
      string enumerates its character positions. */
  function Listing(n: Node): set<seq<string>>
  {
    match n
    case Str(s) => set i | 0 <= i < |s| :: [Decimal(i)]
    case Obj(m) =>
      (set k | k in m :: [k]) +
      (set k, p | k in m && IsDirKey(k) && p in Listing(m[k]) :: [k] + p)
  }

  /** In a well-shaped tree the listing is exactly the set of existing paths
      whose every step but the last is a directory key. */
  lemma {:induction false} ListingExact(n: Node, p: seq<string>)
    requires n.Obj? && WellShaped(n)
    ensures p in Listing(n) <==>
      |p| >= 1 && (forall i :: 0 <= i < |p| - 1 ==> IsDirKey(p[i])) && Lookup(n, p).Some?
    decreases p
  {
    var m := n.entries;
    if |p| >= 2 && p[0] in m && IsDirKey(p[0]) {
      var child := m[p[0]];
      ListingExact(child, p[1..]);
      assert p == [p[0]] + p[1..];
      if p in Listing(n) {
        assert p[1..] in Listing(child);
      }
      assert (forall i :: 0 <= i < |p| - 1 ==> IsDirKey(p[i])) <==>
             (forall i :: 0 <= i < |p[1..]| - 1 ==> IsDirKey(p[1..][i])) by {
        if forall i :: 0 <= i < |p[1..]| - 1 ==> IsDirKey(p[1..][i]) {
          forall i | 0 <= i < |p| - 1 ensures IsDirKey(p[i]) {
            if i > 0 {
              assert p[i] == p[1..][i - 1];
            }
          }
        }
      }
    } else if |p| == 1 && p[0] in m {
      assert p == [p[0]];
    }
  }
}

=== FILE: store.dfy ===
/** The pure core of `Store` in `store.mjs`: the reserved-name check of
    `getArgs`, the prompt loop of `getAdditionalFields`, `save` as a
    tree-to-tree function, and what `get` and `list` show for a path. The
    document file, the prompts and the printing are not modelled. */
module Store {
  import opened Wrappers
  import opened Text
  import opened KeyPath
  import opened SecretTree
  import Envelope

  /** The field of a secret holding its ciphertext; no path or extra field
      may take this name. */
  const PASSWORD: string := "password"

  /** The check of `getArgs`: the path's last key is `password`. */
  predicate IsReservedPath(path: string)
  {
    var keys := GetKeyPath(path);
    |keys| > 0 && keys[|keys| - 1] == PASSWORD
  }

  /** A path is reserved exactly when its last non-empty token is
      `password`, trailing slashes or not. */
  lemma ReservedPathIsLastToken(path: string)
    ensures IsReservedPath(path) <==>
      |Tokens(path)| > 0 && Tokens(path)[|Tokens(path)| - 1] == PASSWORD
  {
    var keys := GetKeyPath(path);
    if |keys| > 0 {
      assert !IsDirKey(keys[|keys| - 1]);
      assert Name(keys[|keys| - 1]) == keys[|keys| - 1];
    }
  }

  /** The name whose assignment on a plain object reaches the inherited
      prototype setter instead of creating a field. */
  const PROTO: string := "__proto__"

  /** `fields[name] = value` on a plain object. For `__proto__` the inherited
      setter runs, and it ignores a string, so nothing is stored. */
  function SetField(fields: map<string, string>, name: string, value: string): (r: map<string, string>)
    ensures PROTO !in fields ==> PROTO !in r
    ensures name != PROTO ==> name in r && r[name] == value
    ensures forall k :: k in r && k != name ==> k in fields && r[k] == fields[k]
  {
    if name == PROTO then fields else fields[name := value]
  }

  /** `Store.getAdditionalFields`, driven by the answers typed at its
      prompts in order: first "Add Fields?" (only `n` stops), then rounds of
      name and value, each followed by "Add Fields?" (`n` or `N` stops). A
      field named `password` is refused and its round restarts without the
      question; one named `__proto__` is not stored. `None` when the answers
      run out, where the prompt would wait for ever. */
  function AdditionalFields(answers: seq<string>): (r: Option<map<string, string>>)
    ensures r.Some? ==> PASSWORD !in r.value && PROTO !in r.value
    ensures r.Some? ==> forall k :: k in r.value ==> k in answers && r.value[k] in answers
  {
    if |answers| == 0 then None
    else if answers[0] == "n" then Some(map[])
    else
      var r := FieldRounds(answers[1..], map[]);
      assert forall a :: a in answers[1..] ==> a in answers;
      r
  }

  function FieldRounds(answers: seq<string>, fields: map<string, string>): (r: Option<map<string, string>>)
    requires PASSWORD !in fields
    ensures r.Some? ==> PASSWORD !in r.value
    ensures r.Some? && PROTO !in fields ==> PROTO !in r.value
    ensures r.Some? ==> forall k :: k in r.value ==>
      (k in fields && r.value[k] == fields[k]) || (k in answers && r.value[k] in answers)
    decreases |answers|
  {
    if |answers| < 2 then None
    else if answers[0] == PASSWORD then
      var r := FieldRounds(answers[2..], fields);
      assert forall a :: a in answers[2..] ==> a in answers;
      r
    else if |answers| < 3 then None
    else
      var added := SetField(fields, answers[0], answers[1]);
      if Lower(answers[2]) == "n" then Some(added)
      else
        var r := FieldRounds(answers[3..], added);
        assert forall a :: a in answers[3..] ==> a in answers;
        r
  }

  /** Answering `n` to the first question collects no field; only a lower
      case `n` stops there, so `N` starts the rounds. */
  lemma FirstQuestion(rest: seq<string>)
    ensures AdditionalFields(["n"] + rest) == Some(map[])
    ensures AdditionalFields(["N"] + rest) == FieldRounds(rest, map[])
  {
    assert (["N"] + rest)[1..] == rest;
  }

  /** One round: a name other than `password` and `__proto__` and its
      value are collected; `n` or `N` to the following question stops, any
      other answer goes on to the next round. */
  lemma FieldRoundCollects(name: string, value: string, answer: string, rest: seq<string>, fields: map<string, string>)
    requires PASSWORD !in fields && name != PASSWORD && name != PROTO
    ensures Lower(answer) == "n" ==>
      FieldRounds([name, value, answer] + rest, fields) == Some(fields[name := value])
    ensures Lower(answer) != "n" ==>
      FieldRounds([name, value, answer] + rest, fields) == FieldRounds(rest, fields[name := value])
  {
    assert ([name, value, answer] + rest)[3..] == rest;
  }

  /** A round naming `__proto__` asks the question as usual but stores
      nothing. */
  lemma ProtoFieldDropped(value: string, answer: string, rest: seq<string>, fields: map<string, string>)
    requires PASSWORD !in fields
    ensures Lower(answer) == "n" ==>
      FieldRounds([PROTO, value, answer] + rest, fields) == Some(fields)
    ensures Lower(answer) != "n" ==>
      FieldRounds([PROTO, value, answer] + rest, fields) == FieldRounds(rest, fields)
  {
    assert ([PROTO, value, answer] + rest)[3..] == rest;
  }

  /** A field named `password` is refused: its value is dropped and the next
      round starts at once, without the question. */
  lemma PasswordFieldRefused(value: string, rest: seq<string>, fields: map<string, string>)
    requires PASSWORD !in fields
    ensures FieldRounds([PASSWORD, value] + rest, fields) == FieldRounds(rest, fields)
  {
    assert ([PASSWORD, value] + rest)[2..] == rest;
  }

  /** The answers of a session that enters the given name/value pairs in
      order, saying `y` to go on and `n` after the last pair. */
  function Session(pairs: seq<(string, string)>): seq<string>
  {
    if pairs == [] then []
    else [pairs[0].0, pairs[0].1, if |pairs| == 1 then "n" else "y"] + Session(pairs[1..])
  }

  /** The pairs entered in order, a later value for a name replacing an
      earlier one, and `__proto__` never stored. */
  function Entered(fields: map<string, string>, pairs: seq<(string, string)>): map<string, string>
    decreases pairs
  {
    if pairs == [] then fields
    else if pairs[0].0 == PROTO then Entered(fields, pairs[1..])
    else Entered(fields[pairs[0].0 := pairs[0].1], pairs[1..])
  }

  /** The rounds of a session collect exactly the pairs entered, the last
      value of each name winning and `__proto__` left out. */
  lemma {:induction false} SessionRounds(pairs: seq<(string, string)>, fields: map<string, string>)
    requires pairs != [] && PASSWORD !in fields
    requires forall i :: 0 <= i < |pairs| ==> pairs[i].0 != PASSWORD
    ensures FieldRounds(Session(pairs), fields) == Some(Entered(fields, pairs))
    decreases |pairs|
  {
    var (name, value) := pairs[0];
    var answer := if |pairs| == 1 then "n" else "y";
    var rest := Session(pairs[1..]);
    assert Lower("n") == "n";
    assert Lower("y") != "n" by {
      assert Lower("y")[0] == 'y';
    }
    var next := if name == PROTO then fields else fields[name := value];
    if name == PROTO {
      ProtoFieldDropped(value, answer, rest, fields);
    } else {
      FieldRoundCollects(name, value, answer, rest, fields);
    }
    if |pairs| > 1 {
      SessionRounds(pairs[1..], next);
    } else {
      assert Entered(next, pairs[1..]) == next;
    }
  }

  /** Saying `y` to the first question and then entering name/value pairs
      collects exactly those pairs, apart from `__proto__`. */
  lemma SessionCollects(pairs: seq<(string, string)>)
    requires pairs != []
    requires forall i :: 0 <= i < |pairs| ==> pairs[i].0 != PASSWORD
    ensures AdditionalFields(["y"] + Session(pairs)) == Some(Entered(map[], pairs))
  {
    SessionRounds(pairs, map[]);
    assert (["y"] + Session(pairs))[1..] == Session(pairs);
  }

  /** The fields `save` assigns to the new secret:
      `{password: ciphertext, ...fields}`. */
  function SecretEntries(ciphertext: string, fields: map<string, string>): (r: map<string, Node>)
    ensures r.Keys == fields.Keys + {PASSWORD}
    ensures forall k :: k in fields ==> r[k] == Str(fields[k])
    ensures PASSWORD !in fields ==> r[PASSWORD] == Str(ciphertext)
    ensures (forall k :: k in fields ==> !IsDirKey(k)) ==> WellShaped(Obj(r))
  {
    map[PASSWORD := Str(ciphertext)] + map k | k in fields :: Str(fields[k])
  }

  /** Assigning a new secret onto an empty string throws exactly when one of
      its extra fields is named `length`. */
  lemma AssignToEmptyThrows(ciphertext: string, fields: map<string, string>)
    ensures AssignToStringThrows("", SecretEntries(ciphertext, fields)) <==> "length" in fields
  {
    assert ReadOnlyOnString("", "length");
    if AssignToStringThrows("", SecretEntries(ciphertext, fields)) {
      var k :| k in SecretEntries(ciphertext, fields) && ReadOnlyOnString("", k);
      assert k == "length";
    }
  }

  /** `Store#save` on the in-memory tree, with the password already
      encrypted: refuse a reserved path, stop if `passwordExists` holds (or
      throws), otherwise insert the secret along the key path. */
  function Save(root: Node, path: string, ciphertext: string, fields: map<string, string>): (r: Result<Node, StoreError>)
    ensures IsReservedPath(path) ==> r == Failure(ReservedName)
    ensures !IsReservedPath(path) ==>
      (r == Failure(AlreadyExists) <==>
        Lookup(root, GetKeyPath(path)).Some? && Truthy(Lookup(root, GetKeyPath(path)).value))
    ensures !IsReservedPath(path) ==>
      (r == Failure(TypeError) <==>
        || HitsString(root, GetKeyPath(path))
        || (Lookup(root, GetKeyPath(path)) == Some(Str("")) && "length" in fields))
    ensures r.Success? <==>
      && !IsReservedPath(path)
      && !HitsString(root, GetKeyPath(path))
      && !(Lookup(root, GetKeyPath(path)).Some? && Truthy(Lookup(root, GetKeyPath(path)).value))
      && !(Lookup(root, GetKeyPath(path)) == Some(Str("")) && "length" in fields)
    ensures r.Success? && Lookup(root, GetKeyPath(path)) == Some(Str("")) ==> r.value == root
  {
    if IsReservedPath(path) then Failure(ReservedName)
    else
      var keys := GetKeyPath(path);
      AssignToEmptyThrows(ciphertext, fields);
      assert HitsString(root, keys) ==> Lookup(root, keys).None? by {
        if HitsString(root, keys) {
          HitsStringNotFound(root, keys);
        }
      }
      var present :- PasswordExists(root, keys);
      if present then Failure(AlreadyExists)
      else Insert(root, keys, SecretEntries(ciphertext, fields))
  }

  /** A successful save (onto anything but an empty string) leaves a secret
      at the path that `walkPath`, exact lookup and `passwordExists` all find. */
  lemma SaveStores(root: Node, path: string, ciphertext: string, fields: map<string, string>)
    requires Save(root, path, ciphertext, fields).Success?
    requires Lookup(root, GetKeyPath(path)) != Some(Str(""))
    ensures var saved := Save(root, path, ciphertext, fields).value;
            var keys := GetKeyPath(path);
            && Lookup(saved, keys) == Some(Obj(SecretEntries(ciphertext, fields)))
            && WalkPath(saved, keys) == Found(Obj(SecretEntries(ciphertext, fields)))
            && PasswordExists(saved, keys) == Success(true)
  {
    var keys := GetKeyPath(path);
    var source := SecretEntries(ciphertext, fields);
    SavedByInsert(root, path, ciphertext, fields);
    assert Lookup(root, keys).None?;
    InsertNewFound(root, keys, source);
  }

  /** A successful save is the insertion of the new secret at a path that
      did not exist (or held an empty string). */
  lemma SavedByInsert(root: Node, path: string, ciphertext: string, fields: map<string, string>)
    requires Save(root, path, ciphertext, fields).Success?
    ensures !IsReservedPath(path)
    ensures PasswordExists(root, GetKeyPath(path)) == Success(false)
    ensures Save(root, path, ciphertext, fields) == Insert(root, GetKeyPath(path), SecretEntries(ciphertext, fields))
  {
  }

  /** Saving twice onto the same path fails the second time. */
  lemma SaveTwiceFails(root: Node, path: string, c1: string, f1: map<string, string>,
                       c2: string, f2: map<string, string>)
    requires Save(root, path, c1, f1).Success?
    requires Lookup(root, GetKeyPath(path)) != Some(Str(""))
    ensures Save(Save(root, path, c1, f1).value, path, c2, f2) == Failure(AlreadyExists)
  {
    SaveStores(root, path, c1, f1);
  }

  /** Saving changes nothing off the saved path: every lookup that is not a
      prefix of the key path and does not go through a field of the new
      secret gives what it gave before. */
  lemma SaveFrame(root: Node, path: string, ciphertext: string, fields: map<string, string>, q: seq<string>)
    requires Save(root, path, ciphertext, fields).Success?
    requires !(q <= GetKeyPath(path))
    requires GetKeyPath(path) < q ==>
      q[|GetKeyPath(path)|] != PASSWORD && q[|GetKeyPath(path)|] !in fields
    ensures Lookup(Save(root, path, ciphertext, fields).value, q) == Lookup(root, q)
  {
    SavedByInsert(root, path, ciphertext, fields);
    InsertFrame(root, GetKeyPath(path), SecretEntries(ciphertext, fields), q);
  }

  /** Saving keeps directories as objects when no field name ends with `/`. */
  lemma SaveKeepsShape(root: Node, path: string, ciphertext: string, fields: map<string, string>)
    requires WellShaped(root)
    requires forall k :: k in fields ==> !IsDirKey(k)
    requires Save(root, path, ciphertext, fields).Success?
    ensures WellShaped(Save(root, path, ciphertext, fields).value)
  {
    SavedByInsert(root, path, ciphertext, fields);
    InsertWellShaped(root, GetKeyPath(path), SecretEntries(ciphertext, fields));
  }

  /** Saving onto an empty string with an extra field named `length` throws
      in `Object.assign`. */
  lemma LengthFieldOnEmptyString()
    ensures Save(Obj(map["x" := Str("")]), "x", "iv:ct", map["length" := "v"]) == Failure(TypeError)
  {
    TwoLevelKeyPath("x", "y");
  }

  /** What `Store#get` shows: a secret's fields, or the names below a directory. */
  datatype View = Secret(fields: map<string, Node>) | Directory(names: set<seq<string>>)

  /** `Store#get`: walk the path; an object with a `password` field is a
      secret, any other object is listed; testing `'password' in` a string or
      `undefined` throws. */
  function GetView(root: Node, path: string): (r: Result<View, StoreError>)
    ensures IsReservedPath(path) ==> r == Failure(ReservedName)
    ensures !IsReservedPath(path) && Lookup(root, GetKeyPath(path)).Some? ==>
      var found := Lookup(root, GetKeyPath(path)).value;
      && (found.Str? ==> r == Failure(TypeError))
      && (found.Obj? ==> r.Success? && (r.value.Secret? <==> PASSWORD in found.entries))
      && (found.Obj? && r.Success? && r.value.Secret? ==> r.value.fields == found.entries)
      && (found.Obj? && r.Success? && r.value.Directory? ==> r.value.names == Listing(found))
    ensures r.Success? && r.value.Secret? ==> PASSWORD in r.value.fields
    ensures !IsReservedPath(path) && !WalkPath(root, GetKeyPath(path)).Found? ==> r == Failure(TypeError)
    ensures !IsReservedPath(path) && WalkPath(root, GetKeyPath(path)).Found? ==>
      var found := WalkPath(root, GetKeyPath(path)).node;
      && (found.Str? ==> r == Failure(TypeError))
      && (found.Obj? && PASSWORD in found.entries ==> r == Success(Secret(found.entries)))
      && (found.Obj? && PASSWORD !in found.entries ==> r == Success(Directory(Listing(found))))
  {
    if IsReservedPath(path) then Failure(ReservedName)
    else match WalkPath(root, GetKeyPath(path))
      case Found(Obj(m)) =>
        if PASSWORD in m then Success(Secret(m)) else Success(Directory(Listing(Obj(m))))
      case _ => Failure(TypeError)
  }

  /** `String(value)` of a field value handed to `decrypt`. */
  function FieldText(n: Node): string
  {
    match n
    case Str(s) => s
    case Obj(_) => "[object Object]"
  }

  /** The decrypted fields `get` prints for a secret (`undefined` where
      decryption throws). */
  function Reveal(c: Envelope.Cipher, fields: map<string, Node>, passphrase: string): (r: map<string, Option<string>>)
    ensures r.Keys == fields.Keys
  {
    map k | k in fields :: Envelope.Decrypt(c, FieldText(fields[k]), passphrase)
  }

  /** Saving an encrypted password and getting the same path shows the
      secret, and its `password` field decrypts to the original plaintext. */
  lemma SaveThenGet(c: Envelope.Cipher, root: Node, path: string, plain: string, passphrase: string,
                    iv: seq<Envelope.byte>, fields: map<string, string>)
    requires Envelope.Inverse(c)
    requires Envelope.Encrypt(c, plain, passphrase, iv).Some?
    requires PASSWORD !in fields
    requires Save(root, path, Envelope.Encrypt(c, plain, passphrase, iv).value, fields).Success?
    requires Lookup(root, GetKeyPath(path)) != Some(Str(""))
    ensures var ciphertext := Envelope.Encrypt(c, plain, passphrase, iv).value;
            var saved := Save(root, path, ciphertext, fields).value;
            && GetView(saved, path) == Success(Secret(SecretEntries(ciphertext, fields)))
            && Reveal(c, SecretEntries(ciphertext, fields), passphrase)[PASSWORD] == Some(plain)
  {
    var ciphertext := Envelope.Encrypt(c, plain, passphrase, iv).value;
    SaveStores(root, path, ciphertext, fields);
    Envelope.EncryptDecrypt(c, plain, passphrase, iv);
  }

  /** `Store#list`: the names below the walked value; a missing or falsy
      value is reported as not existing. */
  function List(root: Node, path: string): (r: Result<set<seq<string>>, StoreError>)
    ensures var found := Lookup(root, GetKeyPath(path));
      && (found.Some? && Truthy(found.value) ==> r == Success(Listing(found.value)))
      && (found.Some? && !Truthy(found.value) ==> r == Failure(NotFound))
    ensures WalkPath(root, GetKeyPath(path)).Found? ==>
      var found := WalkPath(root, GetKeyPath(path)).node;
      && (Truthy(found) ==> r == Success(Listing(found)))
      && (!Truthy(found) ==> r == Failure(NotFound))
    ensures WalkPath(root, GetKeyPath(path)) == Undefined ==> r == Failure(NotFound)
    ensures WalkPath(root, GetKeyPath(path)) == Thrown ==> r == Failure(TypeError)
  {
    match WalkPath(root, GetKeyPath(path))
    case Found(n) => if Truthy(n) then Success(Listing(n)) else Failure(NotFound)
    case Undefined => Failure(NotFound)
    case Thrown => Failure(TypeError)
  }

  /** After a save, listing the root of a well-shaped tree shows the new
      secret under its full key path. */
  lemma SaveThenList(root: Node, path: string, ciphertext: string, fields: map<string, string>)
    requires root.Obj? && WellShaped(root)
    requires forall k :: k in fields ==> !IsDirKey(k)
    requires Save(root, path, ciphertext, fields).Success?
    requires Lookup(root, GetKeyPath(path)) != Some(Str(""))
    requires GetKeyPath(path) != []
    ensures var saved := Save(root, path, ciphertext, fields).value;
            List(saved, "") == Success(Listing(saved)) && GetKeyPath(path) in Listing(saved)
  {
    var keys := GetKeyPath(path);
    var saved := Save(root, path, ciphertext, fields).value;
    SaveStores(root, path, ciphertext, fields);
    SaveKeepsShape(root, path, ciphertext, fields);
    assert saved.Obj?;
    ListingExact(saved, keys);
  }

  /** The key path of `dir/name`, and of `dir` alone. */
  lemma TwoLevelKeyPath(dir: string, name: string)
    requires IsName(dir) && IsName(name)
    ensures GetKeyPath(dir + "/" + name) == [dir + "/", name]
    ensures GetKeyPath(dir) == [dir]
  {
    var p := [dir + "/", name];
    assert Name(dir + "/") == dir;
    assert ValidKeyPath(p);
    assert Concat(p) == dir + "/" + name by {
      assert Concat([name]) == name + Concat([]);
      assert p[1..] == [name];
    }
    KeyPathRoundTrip(p);
    assert Concat([dir]) == dir + Concat([]);
    KeyPathRoundTrip([dir]);
  }

  /** Saving `dir/name` into a new directory adds the directory key `dir/`
      holding one object, `name`, which holds the new secret. */
  lemma SaveIntoNewDirectory(root: Node, dir: string, name: string, ciphertext: string, fields: map<string, string>)
    requires root.Obj? && IsName(dir) && IsName(name)
    requires dir + "/" !in root.entries
    requires name != PASSWORD
    ensures Save(root, dir + "/" + name, ciphertext, fields) ==
      Success(Obj(root.entries[dir + "/" := Obj(map[name := Obj(SecretEntries(ciphertext, fields))])]))
  {
    var path := dir + "/" + name;
    var keys := [dir + "/", name];
    TwoLevelKeyPath(dir, name);
    assert !IsReservedPath(path);
    assert Lookup(root, keys).None? && !HitsString(root, keys);
    SavedByInsert(root, path, ciphertext, fields);
    InsertNewDirectory(root, dir + "/", name, SecretEntries(ciphertext, fields));
  }

  /** A secret saved as `dir/name` in a new directory is reached by the bare
      directory name: `get dir` and `ls dir` walk into `dir/` and show the
      new secret's name. */
  lemma SaveThenGetDirectory(root: Node, dir: string, name: string, ciphertext: string, fields: map<string, string>)
    requires root.Obj? && IsName(dir) && IsName(name)
    requires dir !in root.entries && dir + "/" !in root.entries
    requires name != PASSWORD
    ensures Save(root, dir + "/" + name, ciphertext, fields).Success?
    ensures var saved := Save(root, dir + "/" + name, ciphertext, fields).value;
            var folder := Obj(map[name := Obj(SecretEntries(ciphertext, fields))]);
            && WalkPath(saved, GetKeyPath(dir)) == Found(folder)
            && List(saved, dir) == Success(Listing(folder))
            && (!IsReservedPath(dir) ==> GetView(saved, dir) == Success(Directory(Listing(folder))))
            && [name] in Listing(folder)
  {
    var folder := Obj(map[name := Obj(SecretEntries(ciphertext, fields))]);
    var saved := Obj(root.entries[dir + "/" := folder]);
    SaveIntoNewDirectory(root, dir, name, ciphertext, fields);
    TwoLevelKeyPath(dir, name);
    assert dir != dir + "/";
    WalkPathFallback(saved, [], dir);
    assert [] + [dir] == [dir];
    assert [name] in Listing(folder);
  }

  /** JavaScript values met by the passphrase check. */
  datatype JsValue = Bool(b: bool) | Promise(settlesTo: bool)

  predicate JsTruthy(v: JsValue)
  {
    match v
    case Bool(b) => b
    case Promise(_) => true
  }

  /** `Store#checkEncryptionKey` is `async`: it returns a Promise of the
      comparison between the stored hash and the hash of the key. */
  function CheckEncryptionKey(hash: string -> string, keyhash: string, key: string): JsValue
  {
    Promise(hash(key) == keyhash)
  }

  /** The key branch of `getArgs` rejects when `!checkEncryptionKey(key)`. */
  predicate KeyRejected(hash: string -> string, keyhash: string, key: string)
  {
    !JsTruthy(CheckEncryptionKey(hash, keyhash, key))
  }

  /** The Promise is never falsy, so no key is ever rejected, however its
      hash compares. */
  lemma KeyNeverRejected(hash: string -> string, keyhash: string, key: string)
    ensures !KeyRejected(hash, keyhash, key)
  {
  }

  /** A wrong key that the check lets through: any key whose hash differs
      from the stored one. */
  lemma WrongKeyAccepted()
    ensures var hash := (k: string) => k;
            hash("guess") != "secret" && !KeyRejected(hash, "secret", "guess")
  {
  }

  /** The check with the Promise awaited before it is negated. */
  function AwaitedKeyRejected(hash: string -> string, keyhash: string, key: string): (r: bool)
    ensures r <==> hash(key) != keyhash
  {
    match CheckEncryptionKey(hash, keyhash, key)
    case Promise(settled) => !settled
    case Bool(b) => !b
  }
}

=== FILE: text.dfy ===
/** String helpers with the semantics of JavaScript's `String.prototype.split`
    (on a single character) and `Array.prototype.join`. */
module Text {

  /** `s.split(d)`: the maximal `d`-free pieces of `s`, in order; an empty
      string splits into one empty piece, and adjacent separators give empty
      pieces. Joining the pieces back gives `s`. */
  function Split(s: string, d: char): (r: seq<string>)
    ensures |r| >= 1
    ensures forall i :: 0 <= i < |r| ==> d !in r[i]
    ensures Join(r, d) == s
    decreases |s|
  {
    if |s| == 0 then [""]
    else
      var rest := Split(s[1..], d);
      if s[0] == d then
        JoinCons("", rest, d);
        [""] + rest
      else
        var r := [[s[0]] + rest[0]] + rest[1..];
        JoinHead(r, d);
        JoinHead(rest, d);
        assert r[1..] == rest[1..];
        r
  }

  /** `parts.join(d)`. */
  function Join(parts: seq<string>, d: char): string
  {
    if |parts| == 0 then ""
    else if |parts| == 1 then parts[0]
    else parts[0] + [d] + Join(parts[1..], d)
  }

  lemma JoinCons(a: string, rest: seq<string>, d: char)
    requires |rest| >= 1
    ensures Join([a] + rest, d) == a + [d] + Join(rest, d)
  {
    assert ([a] + rest)[1..] == rest;
  }

  /** Joining is compatible with gluing a character onto the first piece. */
  lemma JoinHead(parts: seq<string>, d: char)
    requires |parts| >= 1
    ensures Join(parts, d) == parts[0] + (if |parts| == 1 then "" else [d] + Join(parts[1..], d))
  {
  }

  /** Splitting a joined sequence of separator-free pieces recovers the pieces. */
  lemma {:induction false} SplitJoin(parts: seq<string>, d: char)
    requires |parts| >= 1
    requires forall i :: 0 <= i < |parts| ==> d !in parts[i]
    ensures Split(Join(parts, d), d) == parts
    decreases |parts|
  {
    if |parts| == 1 {
      SplitNoSeparator(parts[0], d);
    } else {
      SplitJoin(parts[1..], d);
      SplitAt(parts[0], Join(parts[1..], d), d);
      SplitNoSeparator(parts[0], d);
      assert Split(Join(parts, d), d) == [parts[0]] + parts[1..];
    }
  }

  /** A string without the separator splits into itself. */
  lemma {:induction false} SplitNoSeparator(s: string, d: char)
    requires d !in s
    ensures Split(s, d) == [s]
    decreases |s|
  {
    if |s| > 0 {
      SplitNoSeparator(s[1..], d);
    }
  }

  /** One step of splitting: a separator in front starts an empty piece,
      any other character joins the first piece. */
  lemma SplitCons(c: char, t: string, d: char)
    ensures c == d ==> Split([c] + t, d) == [""] + Split(t, d)
    ensures c != d ==> Split([c] + t, d) == [[c] + Split(t, d)[0]] + Split(t, d)[1..]
  {
    assert ([c] + t)[1..] == t;
  }

  /** The piece bookkeeping of `SplitAt`'s step, apart from `Split`. */
  lemma GlueFirst(c: char, px: seq<string>, py: seq<string>, d: char)
    requires |px| >= 1
    ensures c == d ==> [""] + (px + py) == ([""] + px) + py
    ensures c != d ==>
      [[c] + (px + py)[0]] + (px + py)[1..] == ([[c] + px[0]] + px[1..]) + py
  {
    assert (px + py)[1..] == px[1..] + py;
  }

  /** Splitting distributes over a separator occurrence. */
  lemma {:induction false} SplitAt(x: string, y: string, d: char)
    ensures Split(x + [d] + y, d) == Split(x, d) + Split(y, d)
    decreases |x|
  {
    if |x| == 0 {
      assert x + [d] + y == [d] + y;
      SplitCons(d, y, d);
    } else {
      var t := x[1..] + [d] + y;
      assert x + [d] + y == [x[0]] + t;
      assert x == [x[0]] + x[1..];
      SplitAt(x[1..], y, d);
      SplitCons(x[0], t, d);
      SplitCons(x[0], x[1..], d);
      GlueFirst(x[0], Split(x[1..], d), Split(y, d), d);
    }
  }

  /** `s.includes(d)` exactly when `s.split(d)` has at least two pieces. */
  lemma SplitCount(s: string, d: char)
    ensures d in s <==> |Split(s, d)| >= 2
  {
    var p := Split(s, d);
    if |p| == 1 {
      assert Join(p, d) == p[0];
    } else {
      assert Join(p, d) == p[0] + [d] + Join(p[1..], d);
      assert Join(p, d)[|p[0]|] == d;
    }
  }

  /** The first piece is the text before the first separator, and rejoining
      the remaining pieces gives the text after it. */
  lemma SplitFirst(a: string, b: string, d: char)
    requires d !in a
    ensures Split(a + [d] + b, d)[0] == a
    ensures Join(Split(a + [d] + b, d)[1..], d) == b
  {
    SplitAt(a, b, d);
    SplitNoSeparator(a, d);
    assert Split(a + [d] + b, d)[1..] == Split(b, d);
  }

  /** The decimal spelling of a natural number, as JavaScript prints an
      array index (`String(i)`). */
  function Decimal(i: nat): (r: string)
    ensures |r| >= 1
    ensures forall j :: 0 <= j < |r| ==> '0' <= r[j] <= '9'
  {
    var digit := ['0' + (i % 10) as char];
    if i < 10 then digit else Decimal(i / 10) + digit
  }

  /** Different numbers are spelled differently. */
  lemma {:induction false} DecimalInjective(i: nat, j: nat)
    requires Decimal(i) == Decimal(j)
    ensures i == j
    decreases i
  {
    var a, b := Decimal(i), Decimal(j);
    assert a[|a| - 1] == b[|b| - 1];
    assert i % 10 == j % 10;
    if i >= 10 && j >= 10 {
      assert a[..|a| - 1] == Decimal(i / 10);
      assert b[..|b| - 1] == Decimal(j / 10);
      DecimalInjective(i / 10, j / 10);
    }
  }

  /** `toLowerCase` on one ASCII character. */
  function LowerChar(c: char): char
  {
    if 'A' <= c <= 'Z' then (c as int + 32) as char else c
  }

  /** `toUpperCase` on one ASCII character. */
  function UpperChar(c: char): char
  {
    if 'a' <= c <= 'z' then (c as int - 32) as char else c
  }

  /** `s.toLowerCase()` over ASCII text. */
  function Lower(s: string): (r: string)
    ensures |r| == |s|
    ensures forall i :: 0 <= i < |s| ==> r[i] == LowerChar(s[i])
  {
    seq(|s|, i requires 0 <= i < |s| => LowerChar(s[i]))
  }

  /** `s.toUpperCase()` over ASCII text. */
  function Upper(s: string): (r: string)
    ensures |r| == |s|
    ensures forall i :: 0 <= i < |s| ==> r[i] == UpperChar(s[i])
  {
    seq(|s|, i requires 0 <= i < |s| => UpperChar(s[i]))
  }
}

=== FILE: wrappers.dfy ===
/** Failure-compatible wrappers shared by every module of the model.
    `Option` stands for a JavaScript value that may be `undefined`;
    `Result` stands for a computation that may stop with an error. */
module Wrappers {

  datatype Option<+T> = None | Some(value: T) {

    predicate IsFailure() {
      None?
    }

    function PropagateFailure<U>(): Option<U>
      requires None?
    {
      None
    }

    function Extract(): T
      requires Some?
    {
      value
    }
  }

  datatype Result<+R, +E> = Success(value: R) | Failure(error: E) {

    predicate IsFailure() {
      Failure?
    }

    function PropagateFailure<U>(): Result<U, E>
      requires Failure?
    {
      Failure(error)
    }

    function Extract(): R
      requires Success?
    {
      value
    }
  }
}
